=== FILE: README.md ===
# grpcpool in Dafny

This project models the bookkeeping core of the Go package `grpcpool`. The package is a pool of gRPC client connections. Each connection carries a fixed number of concurrent call slots.

- **Conn** (`conn.go`) models one pooled connection, `grpcConn`. It holds an int32 counter of free slots. `get` reserves a slot: a zero check, then a shutdown check, then the zero check again. `recycle` gives a slot back and panics when the counter would exceed the maximum. The module also has the idle, timed-out and closed predicates, and `close`.
- **Options** (`options.go`) models the configuration record, its defaults and the functional `With*` options.
- **GrpcPool** (`pool.go`) models the pool itself:
  - `NewPool` applies the options and builds `MaxIdle` connections;
  - `Get` picks a random connection, from the first round(0.8·l) "warm" ones once the pool has grown past `MaxIdle`, falls back to a forward scan, and grows the pool through `createNewGrpcConn` before trying again;
  - `Put` and `Close`.
- **Maintenance** (`pool.go`, `cleanPeriodically`) models one tick of the background loop. The tick refills the pool to `MaxIdle`. It then compacts the connection list in place, removing every closed or timed-out connection and every idle connection beyond the first `MaxIdle` idle ones.
- **LegacyPool** (`grpcpool.go`) models the older pool API, a separate design:
  - a LIFO queue of clients, each counting its handles (`subs`);
  - a client that reaches 100 handles leaves the queue for a "full-load" set and returns to the queue's tail on the next `Put`;
  - a `Get` evicts the queue head when that head is stale.
- **Common** holds the shared vocabulary: `Option` and `Result`, the error values, int32 wrap-around, the abstract transport, and builder outcomes.

How the model abstracts the Go code:

- Every operation is one atomic step on immutable values. The clock is an integer `now` in nanoseconds.
- The random index `time.Now().UnixNano() % l` becomes `pick % l` for a caller-chosen `pick`. With `l == 0` the Go code divides by zero; the model reports this as `GetPanic`.
- A builder that may be called several times in one operation is a function from the call number to that call's outcome (`Builder = nat -> Dial`). An operation that calls it at most once takes a single `Dial`.
- A transport is reduced to two things: whether it is shut down, and whether closing it fails. Closing an already shut-down transport always fails.
- Go panics are explicit result constructors: `RecyclePanic`, `PutPanic`, `GetPanic`, `ClosePanic` and `TickPanic`.
- The legacy pool's clients are shared mutable records in Go. Here they live in a map from id to record, and the queue, the full-load set and the handles hold ids.

The model follows the code as written, including these behaviours of the code that a caller might not expect:

- **`ErrConnClosed` is swallowed.** In a pool of at most `MaxIdle` connections, `get` failing with `ErrConnClosed` makes `Get` return neither a handle nor an error (`GrpcPool.GetSmallPool`).
- **The scan does not stop at a success.** It calls `get` on every later connection and keeps only the last outcome. Slots it reserved earlier stay reserved and are never handed out (`GrpcPool.GetGrownPoolScan`, `GrpcPool.ScanKeepsEarlierSlots`).
- **The ceiling test is strict.** A pool at `GrpcPoolSize` still grows once, so the bound is `GrpcPoolSize + 1` (`GrpcPool.GetRespectsCeiling`).
- **The builder error is not wrapped.** `NewPool` and `createNewGrpcConn` return it unchanged. Only the legacy pool wraps it.
- **`Close` returns nothing.** Errors from closing connections are only logged. A second `Close` panics, because the termination channel is closed twice.
- **An out-of-range `MaxIdle` panics.** `NewPool` makes the connection list with capacity `MaxIdle`. Go panics on a negative capacity and on one above 2^45, the most pointers a 64-bit allocation may hold (`GrpcPool.NewPool`).
- **`Put` does not clear the caller's handle.** The handle is passed by value, and `recycle` clears only its own copy. Putting the same handle twice releases two slots, and the second release can panic (`GrpcPool.PutTwiceOverReleases`). A handle whose connection the sweep removed still releases its slot on that connection (`GrpcPool.PutOnRetiredConnection`).
- **A tick can empty the pool.** Connections that nobody used for longer than `ClientIdleTimeout` are all removed, and the refill that runs before the sweep does not replace them. The next `Get` then takes an index modulo zero (`Maintenance.QuietPoolIsSweptEmpty`).
- **Legacy `Close` does not stop the pool.** It keeps its queue, so a later `Get` hands out a handle whose `Conn` reports `ClosedErr` (`LegacyPool.GetAfterClose`).

## Model

| member | source | states |
|---|---|---|
| `Common.Wrap32` | conn.go:99-100 | int32 addition: the value is kept when it is in range, MaxInt32 + 1 wraps to MinInt32 and MinInt32 - 1 wraps to MaxInt32 |
| `Common.CloseTransport` | conn.go:123-132 | closing leaves the transport shut down; it reports an error exactly when the transport was already shut down or its close fails |
| `Options.GetDefaultOpt` | options.go:12-18 | the defaults are pool size MaxInt32, 100 streams per connection, 3 idle connections, a 1 s clean interval, a 1 min idle timeout, standard logger, non-blocking and debug off |
| `Options.Apply` | options.go:71-128 | each option writes its value into its own field and leaves every other field unchanged |
| `Options.ApplyIdempotent` | options.go:108-128 | applying an option twice equals applying it once; `WithNonblocking` and `WithDebug` set their flag whatever it was |
| `Options.LastWriter` | pool.go:59-62 | finds the position of the last option that writes a field, or reports that none does |
| `Options.LaterOptionWins` | pool.go:59-62 | after the options are applied in order, each field holds the value of the last option that writes it, or its starting value if none does |
| `Conn.NewGrpcConn` | conn.go:53-64 | a new connection has every slot free (idle) with its counter in range, is last used now, and is not timed out |
| `Conn.Get` | conn.go:66-96 | overload exactly when no slot is free; `ErrConnClosed` exactly when a slot is free but the transport is shut down; success exactly when a slot is free and the transport is up; a failure changes nothing; a success takes one slot, stamps the time, returns a handle bound to this connection and keeps the counter in range |
| `Conn.Recycle` | conn.go:98-109 | giving back a reserved slot raises the counter by one and clears the free-list copy of the handle; giving back a slot on a full counter panics; nothing but the counter changes |
| `Conn.RecycleWrapsAtMaxInt32` | conn.go:98-102 | with a maximum of MaxInt32, a double release wraps the int32 counter to MinInt32 instead of panicking |
| `Conn.Close` | conn.go:123-132 | closing shuts the transport down and changes nothing else; it reports an error exactly when the transport was already shut down or its close fails |
| `Conn.GetThenRecycle` | conn.go:66-109 | round trip: recycling the handle a successful `get` returned restores the counter and clears the free-list copy; only the last-used time has moved |
| `Conn.RunStaysInRange` | conn.go:66-109 | under any sequence of gets and releases, the counter stays within [0, max] unless a release panics |
| `Conn.PairedRoundsRestoreIdle` | conn.go:66-117 | on an open idle connection, any number of get-then-release rounds never panics and leaves the connection idle, last used at the final round's time |
| `Conn.TimeoutMonotone` | conn.go:119-121 | a connection that has timed out stays timed out later; a successful `get` makes it not timed out |
| `Conn.IdleTracksOutstandingSlots` | conn.go:115-117 | a successful `get` makes the connection not idle; releasing the slot makes it idle again exactly when it was idle before |
| `GrpcPool.Spawn` | pool.go:86-87 | appending a new connection keeps the existing list as a prefix, gives the new connection an id above all earlier ids, and keeps the pool invariant |
| `GrpcPool.Fill` | pool.go:80-91 | the fill loop either appends one new connection per successful builder call, in call order with consecutive ids, up to `MaxIdle`, or fails with the error of the first failing call |
| `GrpcPool.FillPreservesValid` | pool.go:80-91 | filling keeps the pool invariant |
| `GrpcPool.NewPool` | pool.go:57-95 | construction panics exactly when the configured `MaxIdle`, the list's capacity, is negative or above 2^45 (`MaxSliceCap`); otherwise the pool is open, its configuration is the options applied to the defaults, and it is filled from the empty list, or the first builder error is returned unwrapped |
| `GrpcPool.NewPoolFresh` | pool.go:74-91 | a new pool holds exactly `MaxIdle` idle connections and no retired ones, the j-th from builder call j with id lastId+1+j, and satisfies the pool invariant |
| `GrpcPool.WarmCount` | pool.go:123 | the integer count is within 0.4 of 0.8·l (so it is round(0.8·l)) and lies between 1 and l when l ≥ 1 |
| `GrpcPool.ChosenIndex` | pool.go:105-124 | the chosen index is in [0, l), in the warm range once l > MaxIdle, and every index in that range is reachable |
| `GrpcPool.CreateNewGrpcConn` | pool.go:244-265 | the pool grows by one exactly when the length is unchanged, not above the ceiling, and the builder succeeds; otherwise it is unchanged; growth appends a fresh idle connection with id lastId+1, stamped now, whose slots and timeout come from the options, and advances lastId; configuration, state and retired connections are always kept; the builder's error is returned exactly when the builder was called and failed; growth never passes the ceiling + 1; the invariant is kept |
| `GrpcPool.Scan` | pool.go:126-132 | the scan applies `get` to every connection from the start index to the end, leaves earlier ones untouched, and keeps the last call's outcome |
| `GrpcPool.GrowAndRetry` | pool.go:133-141 | after a failed acquisition, `Get` either tries again or returns the builder's error with no handle |
| `GrpcPool.Get` | pool.go:97-149 | a closed pool gives `ErrPoolClosed` and changes nothing; an open empty pool panics; handle and error never come together; the only errors returned are `ErrPoolClosed` and builder errors; a retry follows growth by one or a pool above the ceiling; configuration, state and retired connections are unchanged |
| `GrpcPool.GetWithRetries` | pool.go:109-116 | the recursion with a bounded number of attempts: whatever the outcome, each attempt adds at most one connection, never passing the ceiling + 1 |
| `GrpcPool.Put` | pool.go:151-163 | a closed pool ignores the handle; on an open pool the nil handle (failed type assertion) and a handle without a connection (nil dereference) panic; otherwise the slot goes back to the pooled or retired connection and the pool settings, sizes and ids are unchanged |
| `GrpcPool.CloseEach` | pool.go:231-237 | closing goes through every connection in order, whatever each close reports |
| `GrpcPool.Close` | pool.go:225-242 | closing an open pool closes every connection, empties the list and marks the pool closed; closing a closed pool panics |
| `GrpcPool.AfterClose` | pool.go:98-155 | after `Close`, `Get` returns `ErrPoolClosed` and changes nothing, `Put` is a no-op, and another `Close` panics |
| `GrpcPool.GetSmallPool` | pool.go:105-121 | in a pool of at most `MaxIdle` connections: success takes exactly one slot on the chosen connection; `ErrConnClosed` returns neither handle nor error; overload leads to growth and a retry, or to the builder's error |
| `GrpcPool.GetGrownPoolWarm` | pool.go:123-125 | in a grown pool the first try is on a warm connection, and success there takes one slot and changes nothing else |
| `GrpcPool.GetGrownPoolScan` | pool.go:126-142 | when the warm try fails, every later connection is tried in order and earlier ones are untouched; the handle returned is the last connection's; growth is attempted only when that last try failed, and then gives a retry or the builder's error |
| `GrpcPool.ScanKeepsEarlierSlots` | pool.go:127-132 | a concrete pool where the scan takes a slot on a middle connection but returns no handle and grows the pool instead |
| `GrpcPool.GetRespectsCeiling` | pool.go:252-254 | growth through `Get` never takes the pool past `GrpcPoolSize + 1` connections |
| `GrpcPool.GetPreservesValid` | pool.go:97-149 | `Get` keeps the pool invariant: counters in range, settings copied from the configuration, ids increasing, no connections in a closed pool |
| `GrpcPool.PutReleasesOneSlot` | pool.go:157-159 | `Put` of a handle to a pooled connection with a reserved slot gives back exactly that slot; a double release panics |
| `GrpcPool.GetPutRoundTrip` | pool.go:98-163 | for a `Get` that succeeds on the connection it chose, `Put` of the returned handle restores every counter; only that connection's last-used time has moved |
| `GrpcPool.PutPreservesValid` | pool.go:151-163 | `Put` keeps the pool invariant |
| `GrpcPool.PutTwiceOverReleases` | pool.go:151-163 | the caller's handle is not cleared: putting it twice when one slot was out releases once and then panics |
| `GrpcPool.PutOnRetiredConnection` | pool.go:157-159 | a handle bound to a connection the sweep removed still releases its slot there, or panics on a double release |
| `GrpcPool.ScanThenGrowSlots` | pool.go:126-142 | the fallback scan keeps the connections before its start, applies `get` to every later one, and can only add connections |
| `GrpcPool.ScanThenGrowOutcome` | pool.go:126-142 | the fallback returns the last connection's handle when its `get` succeeds; otherwise it grows, giving a retry or the builder's error |
| `Maintenance.Sweep` | pool.go:183-216 | the in-place compaction loop keeps exactly the reference survivors, and closes exactly the reference removed connections, in order |
| `Maintenance.Tick` | pool.go:172-218 | a tick panics exactly when a refill builder call fails; otherwise it refills to at least `MaxIdle` connections and then sweeps; every connection is either kept or closed, and the closed ones join the retired list; the pool invariant is kept for an open pool |
| `Maintenance.SurvivorsSubsequence` | pool.go:185-216 | the survivors keep their relative order |
| `Maintenance.SurvivorsAlive` | pool.go:186-196 | no survivor is closed or timed out |
| `Maintenance.SurvivorsByKind` | pool.go:198-214 | every live busy connection survives, and of the live idle ones exactly the first `MaxIdle` survive |
| `Maintenance.IdleSurvivorsCapped` | pool.go:198-214 | at most `MaxIdle` idle connections survive the sweep |
| `Maintenance.SurvivorsPartition` | pool.go:185-216 | survivors and removed connections together are the list as a multiset: nothing is lost or duplicated |
| `Maintenance.RemovedDeadOrIdle` | pool.go:186-214 | every removed connection was closed, timed out or idle; a live connection with calls in flight is never removed |
| `Maintenance.SurvivorsKeepValid` | pool.go:185-216 | the sweep keeps the pool invariant |
| `Maintenance.QuietPoolIsSweptEmpty` | pool.go:173-196 | when every connection of a full pool has timed out, the refill adds nothing, the sweep removes everything, and the next `Get` panics |
| `LegacyPool.New` | grpcpool.go:87-93 | a new pool has an empty queue and an empty full-load set and satisfies the invariant |
| `LegacyPool.CreateSubClient` | grpcpool.go:67-73 | the handle is bound to its client |
| `LegacyPool.Conn` | grpcpool.go:51-56 | `ClosedErr` exactly when the client's transport is shut down, and the transport otherwise; a cleared handle dereferences nil |
| `LegacyPool.EvictStale` | grpcpool.go:150-154 | a stale queue head is closed and dropped, and nothing else changes; otherwise nothing changes |
| `LegacyPool.Reserve` | grpcpool.go:141-149 | the last queued client gets exactly one more handle and is stamped now; it moves from the queue tail to the full-load set exactly when that makes 100 |
| `LegacyPool.Get` | grpcpool.go:120-157 | empty queue: the builder's error comes back wrapped, or a new client with a fresh id and one handle becomes the whole queue; non-empty queue: the handle is the last client's, its count rises by one, it goes full-load at 100, at most the head is evicted (closed), and no other client changes |
| `LegacyPool.Put` | grpcpool.go:95-118 | panics exactly for a cleared handle or a client with no handles out that is not full-load; a full-load client leaves the set, is stamped now and goes back to the queue tail; any other client only loses a handle; every put counts and clears the handle |
| `LegacyPool.CloseInOrder` | grpcpool.go:164-176 | closes in order: it reports no failure exactly when every transport was up and closes cleanly, and then all are shut down; clients not listed are untouched |
| `LegacyPool.CloseInOrderStopsAtFirstFailure` | grpcpool.go:164-176 | on a failure the close stops at the first client that does not close cleanly: every earlier one closed cleanly, and every later or unlisted client is left exactly as it was, still open |
| `LegacyPool.Close` | grpcpool.go:159-179 | only transports change: queue, full-load set and counters are kept; with no error every queued and full-load client is shut down; when a queued client fails to close, the error is returned and every client outside the queue, full-load ones included, is left open and untouched |
| `LegacyPool.CloseCleanIff` | grpcpool.go:164-178 | `Close` reports no error exactly when every queued and every full-load transport was up and closes cleanly |
| `LegacyPool.ClosePreservesValid` | grpcpool.go:159-179 | `Close` keeps the invariant |
| `LegacyPool.GetPreservesValid` | grpcpool.go:120-157 | `Get` keeps the invariant: the queue holds distinct clients, none of them full-load; queued clients have fewer than 100 handles and full-load ones exactly 100 |
| `LegacyPool.ReservePreservesValid` | grpcpool.go:141-147 | taking a handle from the last client keeps the invariant |
| `LegacyPool.EvictPreservesValid` | grpcpool.go:150-154 | evicting the stale head keeps the invariant |
| `LegacyPool.PutPreservesValid` | grpcpool.go:95-118 | `Put` keeps the invariant |
| `LegacyPool.GetPutRoundTrip` | grpcpool.go:96-157 | `Put` of the handle `Get` just returned restores the queue, the full-load set and the client's handle count, whether or not the client went full-load |
| `LegacyPool.GetAfterClose` | grpcpool.go:159-179 | after a clean `Close` with clients queued, `Get` still succeeds and hands out a handle whose `Conn` reports `ClosedErr` |
| `LegacyPool.PutClearsHandle` | grpcpool.go:98-102 | after a `Put` the handle is cleared, and asking it for its connection dereferences nil |

## Left out

- Goroutines, the ticker and the termination channel of the maintenance loop. A tick is one atomic step.
- The read-write lock, the spin locks, `sync.Cond` and the atomics. Each operation is atomic, so the lock-free zero check in `get` always agrees with the locked one. The unlocked length read in `createNewGrpcConn` is a data race and is not modelled.
- `sync.Pool` recycling of handle objects. Handles are plain values.
- GrpcPool.NewPool: does not model the panic of `time.NewTicker` for a `CleanIntervalTime` of zero or less. It happens in the maintenance goroutine that `NewPool` starts (pool.go:93, pool.go:166), after the pool is returned, and it ends the program.
- Prometheus metrics, logger output, the `Debug` flag's effects and the legacy `Pool.Debug`. They are observability side effects only. One consequence is not modelled: registering the metrics again panics, so a second pool built with `Debug` set panics in `NewPool`.
- The `Nonblocking` option and `ErrPoolOverload`. The option is stored but never consulted, so the model has no non-blocking path.
- The demo programs under `testpool/`. They hold no pool logic.
- GrpcPool.Get: models one attempt. The Go code recurses after growth and does not terminate when the pool sits at its ceiling with every connection overloaded; `Retry` stands for the recursive call.
- GrpcPool.GetWithRetries: bounds the recursion with an explicit list of attempts. `Retry` at the end means the attempts ran out, not that the Go code stops.
- GrpcPool.Put: a handle bound to a connection of another pool is ignored. In the Go code that connection's counter is raised through the handle's pointer.
- GrpcPool.PutPreservesValid: requires a per-connection maximum below MaxInt32. At MaxInt32 a double release wraps the int32 counter instead of panicking (`Conn.RecycleWrapsAtMaxInt32`).
- Conn.RunStaysInRange: requires a maximum below MaxInt32, for the same reason.
- GrpcPool.WarmCount: is exact integer rounding. pool.go rounds in float64, which agrees for every count below 2^49, far above any pool size a `GrpcPoolSize` of MaxInt32 allows. Near 8.5·10^14 the float product can land on .5 and round up where exact rounding does not (l = 850000000000003).
- GrpcPool.Pool: the connection id is a process-wide int32 counter in pool.go, and its wrap-around is not modelled. Each pool carries the last id it handed out.
- Maintenance.Tick: preserves the invariant only for an open pool. The termination channel does not stop a tick that is already waiting for the pool lock (pool.go:172-180): once `Close` returns, that tick runs on the closed pool. It refills the emptied list with `MaxIdle` new connections, and nothing ever closes them. The model's `Tick` on a closed pool computes exactly this refill. The model has no interleaving, so it does not show which ticks can run after `Close`.
- LegacyPool.Put: requires the handle's client to be one of this pool's clients. A handle from another pool is not modelled.
- LegacyPool.Close: takes the full-load clients' close order as a parameter, because Go's map iteration order is unspecified.
- LegacyPool.GetPutRoundTrip: assumes no queued client is stale, so that `Get` evicts nothing.
- LegacyPool.Pool: the process-wide uint64 client id counter is not modelled. Each pool carries its last id, and its wrap-around is not modelled. The get and put counters do wrap at 2^64.

=== FILE: common.dfy ===
/*
 * Shared vocabulary of the pool model: optional values and results, the
 * errors the pool reports, Go's 32-bit integer arithmetic, the abstract
 * transport and what one call of the caller's builder produces.
 */
module Common {

  /** A value that may be absent (Go's nil). */
  datatype Option<+T> = None | Some(value: T)

  /** Either a value or an error, as Go's `(value, err)` pairs. */
  datatype Result<+T, +E> = Ok(value: T) | Err(error: E)

  /** The errors of pool.go; `Builder` carries the builder's own error. */
  datatype Error =
    | PoolClosed       // ErrPoolClosed
    | ConnClosed       // ErrConnClosed
    | GrpcOverload     // errGrpcOverload
    | Builder(cause: string)

  const MinInt32: int := -0x8000_0000
  const MaxInt32: int := 0x7fff_ffff

  /** Go's int32. */
  type Int32 = x: int | MinInt32 <= x <= MaxInt32

  /** Two's-complement truncation to 32 bits, as Go's int32 conversion and
      `atomic.AddInt32` do. */
  function Wrap32(x: int): (r: Int32)
    ensures MinInt32 <= x <= MaxInt32 ==> r == x
    ensures x == MaxInt32 + 1 ==> r == MinInt32
    ensures x == MinInt32 - 1 ==> r == MaxInt32
  {
    (x - MinInt32) % 0x1_0000_0000 + MinInt32
  }

  /** The physical transport (a gRPC client connection), reduced to what the
      pool observes: whether its connectivity state is shutdown, and whether
      closing it reports an error. */
  datatype Transport = Transport(shutdown: bool, closeFails: bool)

  /** Closing a transport leaves it shut down. Closing reports an error when
      the transport says so, and always when it was already shut down (a
      second close of a gRPC client connection is refused). */
  function CloseTransport(t: Transport): (r: (Transport, bool))
    ensures r.0.shutdown
    ensures r.0.closeFails == t.closeFails
    ensures r.1 <==> t.shutdown || t.closeFails
  {
    (t.(shutdown := true), t.shutdown || t.closeFails)
  }

  /** The outcome of one call of the caller-supplied builder. */
  datatype Dial = Dialed(transport: Transport) | DialFailed(cause: string)

  /** A builder called several times in one operation: `builder(k)` is what
      its k-th call (counting from 0) produces. */
  type Builder = nat -> Dial
}

=== FILE: conn.dfy ===
/*
 * One physical connection and its call-slot accounting (conn.go): a counter
 * of free slots that `Get` lowers and `Recycle` raises, the last-used time,
 * and the idle / timed-out / closed predicates the maintenance tick reads.
 * The clock is an integer in nanoseconds passed in by the caller.
 */
module Conn {
  import opened Common

  /** `grpcConn`: the pool back-pointer is replaced by the two settings the
      connection copies from the pool's configuration. */
  datatype GrpcConn = GrpcConn(
    id: int,
    transport: Transport,
    maxStreamsClient: int,
    clientIdleTimeout: int,
    current: Int32,
    ts: int)

  /** `logicConn`: the owning connection (by id) and the transport calls are
      dispatched to. The handle is a value: `recycle` clears its own copy
      before parking it on the free list, and the caller's copy keeps both
      fields. */
  datatype LogicConn = LogicConn(gconn: Option<int>, transport: Option<Transport>)

  const Cleared: LogicConn := LogicConn(None, None)

  /** The slot counter stays between zero and the per-connection maximum,
      and that maximum fits the int32 counter. */
  predicate Valid(c: GrpcConn) {
    0 <= c.current <= c.maxStreamsClient <= MaxInt32
  }

  predicate IsClosed(c: GrpcConn) {
    c.transport.shutdown
  }

  predicate IsIdle(c: GrpcConn) {
    c.current == c.maxStreamsClient
  }

  predicate IsTimeout(c: GrpcConn, now: int) {
    now - c.ts > c.clientIdleTimeout
  }

  /** `newGrpcConn`: every slot is free and the connection was last used now.
      The counter is the int32 conversion of the configured maximum. */
  function NewGrpcConn(id: int, t: Transport, maxStreams: int, idleTimeout: int, now: int): (c: GrpcConn)
    ensures c.id == id && c.transport == t && c.ts == now
    ensures c.maxStreamsClient == maxStreams && c.clientIdleTimeout == idleTimeout
    ensures 0 <= maxStreams <= MaxInt32 ==> Valid(c) && IsIdle(c)
    ensures idleTimeout >= 0 ==> !IsTimeout(c, now)
  {
    GrpcConn(id, t, maxStreams, idleTimeout, Wrap32(maxStreams), now)
  }

  /** What `get` leaves behind: the connection afterwards and either a handle
      or the reason no slot was reserved. */
  datatype Acquired = Acquired(conn: GrpcConn, result: Result<LogicConn, Error>)

  /** `get`. The lock-free zero check comes first, then the shutdown check,
      then the zero check repeated under the connection's lock (which, with
      every operation atomic, agrees with the first). */
  function Get(c: GrpcConn, now: int): (r: Acquired)
    ensures r.result == Err(GrpcOverload) <==> c.current == 0
    ensures r.result == Err(ConnClosed) <==> c.current != 0 && IsClosed(c)
    ensures r.result.Ok? <==> c.current != 0 && !IsClosed(c)
    ensures r.result.Err? ==> r.conn == c
    ensures r.result.Ok? ==>
      && r.result.value == LogicConn(Some(c.id), Some(c.transport))
      && r.conn.ts == now
      && r.conn.(ts := c.ts, current := c.current) == c
    ensures Valid(c) && r.result.Ok? ==> r.conn.current == c.current - 1 && Valid(r.conn)
  {
    if c.current == 0 then Acquired(c, Err(GrpcOverload))
    else if c.transport.shutdown then Acquired(c, Err(ConnClosed))
    else if c.current == 0 then Acquired(c, Err(GrpcOverload))
    else
      var c' := c.(ts := now, current := Wrap32(c.current - 1));
      Acquired(c', Ok(LogicConn(Some(c.id), Some(c.transport))))
  }

  /** What `recycle` leaves behind; a panic ends the program. */
  datatype Recycled = Recycled(conn: GrpcConn, handle: LogicConn) | RecyclePanic

  /** `recycle`: the counter is raised (with int32 wrap-around) and the
      program panics if it then exceeds the maximum, i.e. when a slot is
      released that was never reserved. The copy of the handle that goes
      back to the free list is cleared; the caller's copy is untouched. */
  function Recycle(c: GrpcConn, lc: LogicConn): (r: Recycled)
    ensures c.current < c.maxStreamsClient && c.current < MaxInt32 ==>
      r.Recycled? && r.conn == c.(current := c.current + 1)
    ensures c.maxStreamsClient <= c.current < MaxInt32 ==> r.RecyclePanic?
    ensures r.Recycled? ==> r.handle == Cleared && r.conn.(current := c.current) == c
  {
    var next := Wrap32(c.current + 1);
    if next > c.maxStreamsClient then RecyclePanic
    else Recycled(c.(current := next), Cleared)
  }

  /** The int32 counter hides one double release: with a maximum of
      MaxInt32, releasing on an idle connection wraps the counter to
      MinInt32 instead of panicking. */
  lemma RecycleWrapsAtMaxInt32(c: GrpcConn, lc: LogicConn)
    requires c.maxStreamsClient == MaxInt32 && IsIdle(c)
    ensures Recycle(c, lc).Recycled?
    ensures Recycle(c, lc).conn.current == MinInt32
  {
  }

  /** `close`: the transport is shut down, and the close error (if any) is
      reported to the caller. */
  datatype Closed = Closed(conn: GrpcConn, failed: bool)

  function Close(c: GrpcConn): (r: Closed)
    ensures IsClosed(r.conn)
    ensures r.conn.(transport := c.transport) == c
    ensures r.failed <==> IsClosed(c) || c.transport.closeFails
  {
    var (t, failed) := CloseTransport(c.transport);
    Closed(c.(transport := t), failed)
  }

  /** Round trip: releasing the slot a successful `get` reserved restores the
      counter and hands back a cleared handle; only the last-used time moved. */
  lemma {:induction false} GetThenRecycle(c: GrpcConn, now: int)
    requires Valid(c)
    requires Get(c, now).result.Ok?
    ensures var a := Get(c, now);
      Recycle(a.conn, a.result.value) == Recycled(c.(ts := now), Cleared)
  {
    var a := Get(c, now);
    assert a.conn.current == c.current - 1 < a.conn.maxStreamsClient;
  }

  /** A slot operation on one connection: a `get` at a given time, or the
      release of a handle it handed out. */
  datatype SlotOp = Acquire(now: int) | Release

  /** Runs a sequence of slot operations; `None` means a release panicked. */
  function Run(c: GrpcConn, ops: seq<SlotOp>): Option<GrpcConn>
    decreases |ops|
  {
    if ops == [] then Some(c)
    else match ops[0]
      case Acquire(now) => Run(Get(c, now).conn, ops[1..])
      case Release =>
        match Recycle(c, LogicConn(Some(c.id), Some(c.transport)))
        case RecyclePanic => None
        case Recycled(c', _) => Run(c', ops[1..])
  }

  /** Whatever sequence of gets and releases is applied, the counter never
      leaves [0, maxStreamsClient]: a release that would push it past the
      maximum panics instead (given a maximum below MaxInt32, see
      `RecycleWrapsAtMaxInt32`). */
  lemma {:induction false} RunStaysInRange(c: GrpcConn, ops: seq<SlotOp>)
    requires Valid(c) && c.maxStreamsClient < MaxInt32
    ensures Run(c, ops).Some? ==> Valid(Run(c, ops).value)
    ensures Run(c, ops).Some? ==> Run(c, ops).value.maxStreamsClient == c.maxStreamsClient
    decreases |ops|
  {
    if ops != [] {
      match ops[0]
      case Acquire(now) =>
        RunStaysInRange(Get(c, now).conn, ops[1..]);
      case Release =>
        var r := Recycle(c, LogicConn(Some(c.id), Some(c.transport)));
        if r.Recycled? {
          assert c.current < c.maxStreamsClient;
          RunStaysInRange(r.conn, ops[1..]);
        }
    }
  }

  /** Paired use: on an open, idle connection, any number of get-then-release
      rounds never panics and leaves the connection idle again, last used at
      the final round's time. */
  lemma {:induction false} PairedRoundsRestoreIdle(c: GrpcConn, times: seq<int>)
    requires Valid(c) && IsIdle(c) && !IsClosed(c) && c.maxStreamsClient > 0
    requires |times| > 0
    ensures Run(c, Rounds(times)) == Some(c.(ts := times[|times| - 1]))
    decreases |times|
  {
    var a := Get(c, times[0]);
    assert a.conn == c.(ts := times[0], current := c.current - 1);
    var c1 := c.(ts := times[0]);
    assert Recycle(a.conn, LogicConn(Some(a.conn.id), Some(a.conn.transport))) == Recycled(c1, Cleared);
    assert Rounds(times)[0] == Acquire(times[0]);
    assert Rounds(times)[1..][0] == Release;
    assert Rounds(times)[2..] == Rounds(times[1..]);
    assert Run(a.conn, Rounds(times)[1..]) == Run(c1, Rounds(times)[2..]);
    if |times| == 1 {
    } else {
      PairedRoundsRestoreIdle(c1, times[1..]);
    }
  }

  /** One get followed by one release per time in `times`. */
  function Rounds(times: seq<int>): (ops: seq<SlotOp>)
    ensures |ops| == 2 * |times|
    decreases |times|
  {
    if times == [] then [] else [Acquire(times[0]), Release] + Rounds(times[1..])
  }

  /** Timing out is monotone in time: a connection timed out now stays timed
      out later, and a successful `get` makes it not timed out (for a
      non-negative timeout). */
  lemma TimeoutMonotone(c: GrpcConn, now: int, later: int)
    requires now <= later
    ensures IsTimeout(c, now) ==> IsTimeout(c, later)
    ensures c.clientIdleTimeout >= 0 && Get(c, now).result.Ok? ==> !IsTimeout(Get(c, now).conn, now)
  {
  }

  /** A successful `get` makes the connection busy; releasing its slot makes
      it idle again exactly when it was idle before. */
  lemma IdleTracksOutstandingSlots(c: GrpcConn, now: int)
    requires Valid(c) && Get(c, now).result.Ok?
    ensures !IsIdle(Get(c, now).conn)
    ensures var a := Get(c, now);
      IsIdle(Recycle(a.conn, a.result.value).conn) <==> IsIdle(c)
  {
  }
}

=== FILE: legacy.dfy ===
/*
 * The older queue-based pool (grpcpool.go), a separate API from the
 * slot-counting pool. Clients are shared records: a handle, the queue and
 * the full-load set all refer to the same client, so clients live in a heap
 * (a map from id to record) and everything else holds ids. The queue is
 * used LIFO: `Get` always takes its last client. A client that reaches 100
 * handles leaves the queue for the full-load set and comes back at the
 * tail when one of its handles is returned.
 */
module LegacyPool {
  import opened Common

  const MaxSubsPerClient: int := 100
  /** `defaultClientIdleTimeout`, one minute in nanoseconds. */
  const ClientIdleTimeout: int := 60_000_000_000
  const Two64: int := 0x1_0000_0000_0000_0000

  /** The message the builder's error is wrapped with. */
  const BuilderMessage: string := "call builder to create grpc client conn err"

  /** The legacy pool's own error values, separate from `Common.Error`. */
  datatype LegacyError =
    | Wrapped(message: string, cause: string)   // the builder's error, wrapped
    | ClosedErr                                 // the handle's transport is shut down
    | CloseFailed                               // a transport refused to close

  /** `grpcClient`: one transport and the number of handles out on it. */
  datatype Client = Client(id: nat, transport: Transport, subs: int, ts: int)

  /** `subClient`: the client a handle was taken from; its connection is
      that client's transport. A returned handle has it cleared. */
  datatype SubClient = SubClient(client: Option<nat>)

  const ClearedSub: SubClient := SubClient(None)

  /** `Pool`: the client heap, the queue, the full-load set (the map keyed
      by client id), and the get/put counters (uint64 in grpcpool.go).
      `lastId` is the last id handed out. */
  datatype Pool = Pool(
    clients: map<nat, Client>,
    queue: seq<nat>,
    fullload: set<nat>,
    gets: nat,
    puts: nat,
    lastId: nat)

  /** `New`: nothing queued, nothing full. */
  function New(lastId: nat): (p: Pool)
    ensures Valid(p) && p.queue == [] && p.fullload == {}
  {
    Pool(map[], [], {}, 0, 0, lastId)
  }

  /** Increment of an unsigned 64-bit counter. */
  function Inc64(x: nat): (r: nat)
    ensures x + 1 < Two64 ==> r == x + 1
    ensures r < Two64
  {
    (x + 1) % Two64
  }

  /** Every id the pool mentions names a client in the heap, stored under
      its own id, and no id exceeds the last one handed out. */
  predicate WellFormed(p: Pool) {
    && (forall id :: id in p.clients ==> 1 <= id <= p.lastId && p.clients[id].id == id)
    && (forall k :: 0 <= k < |p.queue| ==> p.queue[k] in p.clients)
    && (forall id :: id in p.fullload ==> id in p.clients)
  }

  /** The queue holds each client at most once and never one that is also
      full-loaded; queued clients have room for another handle, full-loaded
      ones have exactly 100 out, and no count is negative. */
  predicate Valid(p: Pool) {
    && WellFormed(p)
    && (forall i, j :: 0 <= i < j < |p.queue| ==> p.queue[i] != p.queue[j])
    && (forall k :: 0 <= k < |p.queue| ==> p.queue[k] !in p.fullload)
    && (forall k :: 0 <= k < |p.queue| ==> p.clients[p.queue[k]].subs < MaxSubsPerClient)
    && (forall id :: id in p.fullload ==> p.clients[id].subs == MaxSubsPerClient)
    && (forall id :: id in p.clients ==> p.clients[id].subs >= 0)
  }

  /** `createSubClient`: a handle bound to the client. */
  function CreateSubClient(c: Client): (s: SubClient)
    ensures s.client == Some(c.id)
  {
    SubClient(Some(c.id))
  }

  datatype ConnResult = ConnOk(transport: Transport) | ConnErr(err: LegacyError) | ConnPanic

  /** `subClient.Conn`: the client's transport, or `ClosedErr` once it is
      shut down. A returned (cleared) handle has no connection to ask, and
      asking dereferences nil. */
  function Conn(p: Pool, s: SubClient): (r: ConnResult)
    requires s.client.Some? ==> s.client.value in p.clients
    ensures s.client.None? <==> r.ConnPanic?
    ensures s.client.Some? ==>
      var t := p.clients[s.client.value].transport;
      (r == ConnErr(ClosedErr) <==> t.shutdown) && (r.ConnOk? <==> !t.shutdown)
    ensures r.ConnOk? ==> r.transport == p.clients[s.client.value].transport
  {
    match s.client
    case None => ConnPanic
    case Some(id) =>
      var t := p.clients[id].transport;
      if t.shutdown then ConnErr(ClosedErr) else ConnOk(t)
  }

  /** True when the queue's head has been unused for longer than the idle
      timeout. */
  predicate HeadStale(p: Pool, now: int)
    requires WellFormed(p)
  {
    |p.queue| > 0 && now - p.clients[p.queue[0]].ts > ClientIdleTimeout
  }

  /** The eviction at the end of a `Get` from a non-empty queue: a stale
      head is closed (the close error is ignored) and dropped; nothing else
      is. */
  function EvictStale(p: Pool, now: int): (r: Pool)
    requires WellFormed(p)
    ensures WellFormed(r)
    ensures r.fullload == p.fullload && r.clients.Keys == p.clients.Keys
    ensures r.gets == p.gets && r.puts == p.puts && r.lastId == p.lastId
    ensures !HeadStale(p, now) ==> r == p
    ensures HeadStale(p, now) ==>
      && r.queue == p.queue[1..]
      && r.clients[p.queue[0]].transport.shutdown
      && r.clients[p.queue[0]].(transport := p.clients[p.queue[0]].transport) == p.clients[p.queue[0]]
      && (forall id :: id in p.clients && id != p.queue[0] ==> r.clients[id] == p.clients[id])
  {
    if HeadStale(p, now) then
      var h := p.queue[0];
      var (t, _) := CloseTransport(p.clients[h].transport);
      var r := p.(clients := p.clients[h := p.clients[h].(transport := t)], queue := p.queue[1..]);
      assert forall k :: 0 <= k < |r.queue| ==> r.queue[k] == p.queue[k + 1];
      r
    else p
  }

  /** The part of `Get` on a non-empty queue before the eviction: the last
      client gets one more handle and is marked used now, and moves to the
      full-load set when that makes 100. */
  function Reserve(p: Pool, now: int): (r: Pool)
    requires WellFormed(p) && |p.queue| > 0
    ensures WellFormed(r)
    ensures r.gets == Inc64(p.gets) && r.puts == p.puts && r.lastId == p.lastId
    ensures r.clients.Keys == p.clients.Keys
    ensures var id := p.queue[|p.queue| - 1];
      var full := p.clients[id].subs + 1 == MaxSubsPerClient;
      && r.clients[id] == p.clients[id].(subs := p.clients[id].subs + 1, ts := now)
      && (forall other :: other in p.clients && other != id ==> r.clients[other] == p.clients[other])
      && r.queue == (if full then p.queue[..|p.queue| - 1] else p.queue)
      && r.fullload == (if full then p.fullload + {id} else p.fullload)
  {
    var id := p.queue[|p.queue| - 1];
    var c := p.clients[id].(subs := p.clients[id].subs + 1);
    var full := c.subs == MaxSubsPerClient;
    p.(clients := p.clients[id := c.(ts := now)],
       queue := if full then p.queue[..|p.queue| - 1] else p.queue,
       fullload := if full then p.fullload + {id} else p.fullload,
       gets := Inc64(p.gets))
  }

  datatype Got = Got(pool: Pool, sub: SubClient) | GetFailed(err: LegacyError)

  /** `Pool.Get`. With an empty queue the builder is called (`dial` is its
      outcome): its error is returned wrapped, otherwise a new client with
      one handle is queued. With a non-empty queue the last client gets
      one more handle, moves to the full-load set when that makes 100, and
      then a stale queue head is evicted. */
  function Get(p: Pool, dial: Dial, now: int): (r: Got)
    requires WellFormed(p)
    ensures r.Got? ==> WellFormed(r.pool) && r.pool.puts == p.puts && r.pool.gets == Inc64(p.gets)
    ensures |p.queue| == 0 && dial.DialFailed? ==> r == GetFailed(Wrapped(BuilderMessage, dial.cause))
    ensures |p.queue| == 0 && dial.Dialed? ==>
      && r.Got? && r.sub.client == Some(p.lastId + 1) && p.lastId + 1 !in p.clients
      && r.pool.clients == p.clients[p.lastId + 1 := Client(p.lastId + 1, dial.transport, 1, now)]
      && r.pool.queue == [p.lastId + 1] && r.pool.fullload == p.fullload
    ensures |p.queue| > 0 ==> r.Got? && r.pool.lastId == p.lastId && r.pool.clients.Keys == p.clients.Keys
    ensures |p.queue| > 0 ==>
      var id := p.queue[|p.queue| - 1];
      var c := p.clients[id];
      var full := c.subs + 1 == MaxSubsPerClient;
      var kept := if full then p.queue[..|p.queue| - 1] else p.queue;
      && r.sub == SubClient(Some(id))
      && r.pool.clients[id].subs == c.subs + 1
      && r.pool.clients[id].ts == now
      && r.pool.fullload == (if full then p.fullload + {id} else p.fullload)
      && (r.pool.queue == kept || (|kept| > 0 && r.pool.queue == kept[1..]
            && r.pool.clients[kept[0]].transport.shutdown))
      && (forall other :: other in p.clients && other != id && (|kept| == 0 || other != kept[0]) ==>
            r.pool.clients[other] == p.clients[other])
  {
    if |p.queue| == 0 then
      match dial
      case DialFailed(cause) => GetFailed(Wrapped(BuilderMessage, cause))
      case Dialed(t) =>
        var id := p.lastId + 1;
        var c := Client(id, t, 1, now);
        Got(p.(clients := p.clients[id := c], queue := p.queue + [id], gets := Inc64(p.gets), lastId := id),
            CreateSubClient(c))
    else
      var id := p.queue[|p.queue| - 1];
      var reserved := Reserve(p, now);
      var r := EvictStale(reserved, now);
      assert r.clients[id].subs == reserved.clients[id].subs && r.clients[id].ts == now by {
        if HeadStale(reserved, now) && reserved.queue[0] == id {
          assert r.clients[id].(transport := reserved.clients[id].transport) == reserved.clients[id];
        }
      }
      Got(r, CreateSubClient(reserved.clients[id]))
  }

  datatype PutResult = PutDone(pool: Pool, sub: SubClient) | PutPanic

  /** `Pool.Put`. A full-loaded client leaves the full-load set, gives up a
      handle, is marked used now and goes back to the queue's tail; any
      other client just gives up a handle, and one with none out panics.
      Every put counts and hands back a cleared handle; a handle that was
      already returned has no client and the put panics on it. */
  function Put(p: Pool, s: SubClient, now: int): (r: PutResult)
    requires WellFormed(p)
    requires s.client.Some? ==> s.client.value in p.clients
    ensures r.PutPanic? <==>
      (s.client.None? || (s.client.value !in p.fullload && p.clients[s.client.value].subs == 0))
    ensures r.PutDone? ==>
      var id := s.client.value;
      && r.sub == ClearedSub
      && WellFormed(r.pool)
      && r.pool.puts == Inc64(p.puts) && r.pool.gets == p.gets && r.pool.lastId == p.lastId
      && r.pool.clients.Keys == p.clients.Keys
      && r.pool.clients[id].subs == p.clients[id].subs - 1
      && (forall other :: other in p.clients && other != id ==> r.pool.clients[other] == p.clients[other])
      && (id in p.fullload ==>
            && r.pool.fullload == p.fullload - {id}
            && r.pool.queue == p.queue + [id]
            && r.pool.clients[id].ts == now)
      && (id !in p.fullload ==>
            && r.pool.fullload == p.fullload
            && r.pool.queue == p.queue
            && r.pool.clients[id].ts == p.clients[id].ts)
  {
    match s.client
    case None => PutPanic
    case Some(id) =>
      var puts := Inc64(p.puts);
      var c := p.clients[id];
      if id in p.fullload then
        var c' := c.(ts := now, subs := c.subs - 1);
        PutDone(p.(clients := p.clients[id := c'], fullload := p.fullload - {id},
                   queue := p.queue + [id], puts := puts), ClearedSub)
      else if c.subs == 0 then PutPanic
      else PutDone(p.(clients := p.clients[id := c.(subs := c.subs - 1)], puts := puts), ClearedSub)
  }

  /** No id occurs twice. */
  predicate Distinct(ids: seq<nat>) {
    forall i, j :: 0 <= i < j < |ids| ==> ids[i] != ids[j]
  }

  /** A transport that closes without error. */
  predicate ClosesCleanly(c: Client) {
    !c.transport.shutdown && !c.transport.closeFails
  }

  /** Closes the transports of `ids` in order and stops at the first close
      that reports an error; the flag says whether one did. */
  function CloseInOrder(clients: map<nat, Client>, ids: seq<nat>): (r: (map<nat, Client>, bool))
    requires forall k :: 0 <= k < |ids| ==> ids[k] in clients
    ensures r.0.Keys == clients.Keys
    ensures forall id :: id in clients ==>
      r.0[id].(transport := clients[id].transport) == clients[id]
    ensures forall id :: id in clients && id !in ids ==> r.0[id] == clients[id]
    ensures Distinct(ids) ==>
      (!r.1 <==> forall k :: 0 <= k < |ids| ==> ClosesCleanly(clients[ids[k]]))
    ensures !r.1 ==> forall k :: 0 <= k < |ids| ==> r.0[ids[k]].transport.shutdown
    decreases |ids|
  {
    if ids == [] then (clients, false)
    else
      var c := clients[ids[0]];
      var closed := CloseTransport(c.transport);
      var clients' := clients[ids[0] := c.(transport := closed.0)];
      if closed.1 then (clients', true)
      else
        var rest := ids[1..];
        var r := CloseInOrder(clients', rest);
        assert forall k :: 1 <= k < |ids| ==> ids[k] == rest[k - 1];
        r
  }

  /** The close of `ids[k]` is the first to fail: every earlier client
      closes cleanly, and `after` leaves every client past `k` (or not
      listed) exactly as in `before`. */
  predicate StoppedAt(before: map<nat, Client>, after: map<nat, Client>, ids: seq<nat>, k: int)
    requires forall i :: 0 <= i < |ids| ==> ids[i] in before
  {
    && 0 <= k < |ids|
    && !ClosesCleanly(before[ids[k]])
    && (forall j :: 0 <= j < k ==> ClosesCleanly(before[ids[j]]))
    && (forall id :: id in before && id !in ids[..k + 1] ==> id in after && after[id] == before[id])
  }

  /** `CloseInOrder` stops at the first close that fails: every earlier
      client closed cleanly, and every client after it (and every client
      not listed) is left exactly as it was, its transport still open. */
  lemma {:induction false} CloseInOrderStopsAtFirstFailure(clients: map<nat, Client>, ids: seq<nat>)
    requires forall k :: 0 <= k < |ids| ==> ids[k] in clients
    requires Distinct(ids)
    ensures CloseInOrder(clients, ids).1 ==>
      exists k :: StoppedAt(clients, CloseInOrder(clients, ids).0, ids, k)
    decreases |ids|
  {
    if ids != [] {
      var c := clients[ids[0]];
      var closed := CloseTransport(c.transport);
      if closed.1 {
        StopsAtHead(clients, ids);
      } else {
        var clients' := clients[ids[0] := c.(transport := closed.0)];
        var rest := ids[1..];
        CleanHeadSteps(clients, ids);
        if CloseInOrder(clients', rest).1 {
          CloseInOrderStopsAtFirstFailure(clients', rest);
          var after := CloseInOrder(clients', rest).0;
          var k' :| StoppedAt(clients', after, rest, k');
          StopsLater(clients, clients', after, ids, k');
        }
      }
    }
  }

  /** After a clean close of the head, `CloseInOrder` goes on with the rest
      of the list, which is still distinct and still in the map. */
  lemma CleanHeadSteps(clients: map<nat, Client>, ids: seq<nat>)
    requires forall k :: 0 <= k < |ids| ==> ids[k] in clients
    requires Distinct(ids) && ids != [] && !CloseTransport(clients[ids[0]].transport).1
    ensures var c := clients[ids[0]];
      var clients' := clients[ids[0] := c.(transport := CloseTransport(c.transport).0)];
      && CloseInOrder(clients, ids) == CloseInOrder(clients', ids[1..])
      && Distinct(ids[1..])
      && (forall k :: 0 <= k < |ids[1..]| ==> ids[1..][k] in clients')
  {
    var rest := ids[1..];
    assert forall i :: 0 <= i < |rest| ==> rest[i] == ids[i + 1];
  }

  /** A failing close of the head stops there. */
  lemma StopsAtHead(clients: map<nat, Client>, ids: seq<nat>)
    requires forall k :: 0 <= k < |ids| ==> ids[k] in clients
    requires ids != [] && CloseTransport(clients[ids[0]].transport).1
    ensures StoppedAt(clients, CloseInOrder(clients, ids).0, ids, 0)
  {
    assert ids[..1] == [ids[0]];
  }

  /** A clean close of the head followed by a stop at `k'` in the rest is a
      stop at `k' + 1`; `clients'` differs from `clients` only at the head. */
  lemma StopsLater(clients: map<nat, Client>, clients': map<nat, Client>, after: map<nat, Client>,
                   ids: seq<nat>, k': int)
    requires forall k :: 0 <= k < |ids| ==> ids[k] in clients
    requires Distinct(ids) && ids != [] && ClosesCleanly(clients[ids[0]])
    requires clients'.Keys == clients.Keys
    requires forall id :: id in clients && id != ids[0] ==> clients'[id] == clients[id]
    requires StoppedAt(clients', after, ids[1..], k')
    ensures StoppedAt(clients, after, ids, k' + 1)
  {
    var rest := ids[1..];
    assert forall i :: 0 <= i < |rest| ==> rest[i] == ids[i + 1] && rest[i] != ids[0];
    PrefixSplit(ids, k' + 2);
  }

  lemma PrefixSplit(ids: seq<nat>, n: nat)
    requires 0 < n <= |ids|
    ensures ids[..n] == [ids[0]] + ids[1..][..n - 1]
  {
  }

  datatype Closed = Closed(pool: Pool, err: Option<LegacyError>)

  /** `Pool.Close`: closes the queued clients in queue order, returning at
      the first error; then the full-loaded ones in `order` (the map's
      iteration order, which the Go code leaves unspecified), stopping at the
      first error, which is returned. The queue and the full-load set are
      kept as they are: the pool is not marked closed. */
  function Close(p: Pool, order: seq<nat>): (r: Closed)
    requires WellFormed(p)
    requires Distinct(order) && (forall k :: 0 <= k < |order| ==> order[k] in p.fullload)
    requires forall id :: id in p.fullload ==> id in order
    ensures r.pool == p.(clients := r.pool.clients)
    ensures r.pool.clients.Keys == p.clients.Keys
    ensures forall id :: id in p.clients ==>
      r.pool.clients[id].(transport := p.clients[id].transport) == p.clients[id]
    ensures r.err.None? || r.err == Some(CloseFailed)
    ensures r.err.None? ==>
      && (forall k :: 0 <= k < |p.queue| ==> r.pool.clients[p.queue[k]].transport.shutdown)
      && (forall id :: id in p.fullload ==> r.pool.clients[id].transport.shutdown)
    ensures Distinct(p.queue) && (exists k :: 0 <= k < |p.queue| && !ClosesCleanly(p.clients[p.queue[k]])) ==>
      && r.err == Some(CloseFailed)
      && forall id :: id in p.clients && id !in p.queue ==> r.pool.clients[id] == p.clients[id]
  {
    var (c1, failed) := CloseInOrder(p.clients, p.queue);
    if failed then Closed(p.(clients := c1), Some(CloseFailed))
    else
      var (c2, failed2) := CloseInOrder(c1, order);
      assert !failed2 ==> forall k :: 0 <= k < |p.queue| ==> c2[p.queue[k]].transport.shutdown by {
        if !failed2 {
          forall k | 0 <= k < |p.queue| ensures c2[p.queue[k]].transport.shutdown {
            if p.queue[k] !in order {
              assert c2[p.queue[k]] == c1[p.queue[k]];
            }
          }
        }
      }
      Closed(p.(clients := c2), if failed2 then Some(CloseFailed) else None)
  }

  /** `Close` reports no error exactly when every queued and every
      full-loaded transport was up and closed cleanly. */
  lemma CloseCleanIff(p: Pool, order: seq<nat>)
    requires Valid(p)
    requires Distinct(order) && (forall k :: 0 <= k < |order| ==> order[k] in p.fullload)
    requires forall id :: id in p.fullload ==> id in order
    ensures Close(p, order).err.None? <==>
      (forall k :: 0 <= k < |p.queue| ==> ClosesCleanly(p.clients[p.queue[k]]))
      && (forall id :: id in p.fullload ==> ClosesCleanly(p.clients[id]))
  {
    var (c1, failed) := CloseInOrder(p.clients, p.queue);
    if !failed {
      forall k | 0 <= k < |order| ensures c1[order[k]] == p.clients[order[k]] {
        assert order[k] in p.fullload;
      }
      forall id | id in p.fullload ensures exists k :: 0 <= k < |order| && order[k] == id {
        assert id in order;
      }
    }
  }

  /** `Close` keeps the invariant: it changes transports only. */
  lemma ClosePreservesValid(p: Pool, order: seq<nat>)
    requires Valid(p)
    requires Distinct(order) && (forall k :: 0 <= k < |order| ==> order[k] in p.fullload)
    requires forall id :: id in p.fullload ==> id in order
    ensures Valid(Close(p, order).pool)
  {
    var q := Close(p, order).pool;
    assert forall id :: id in p.clients ==> q.clients[id].subs == p.clients[id].subs && q.clients[id].id == id;
  }

  /** `Get` keeps the invariant. */
  lemma GetPreservesValid(p: Pool, dial: Dial, now: int)
    requires Valid(p)
    ensures Get(p, dial, now).Got? ==> Valid(Get(p, dial, now).pool)
  {
    if |p.queue| > 0 {
      ReservePreservesValid(p, now);
      EvictPreservesValid(Reserve(p, now), now);
      GetFromQueue(p, dial, now);
    } else if dial.Dialed? {
      NewClientPreservesValid(p, dial.transport, now);
    }
  }

  /** On a non-empty queue `Get` is the reservation followed by the eviction. */
  lemma GetFromQueue(p: Pool, dial: Dial, now: int)
    requires Valid(p) && |p.queue| > 0
    ensures Get(p, dial, now).Got? && Get(p, dial, now).pool == EvictStale(Reserve(p, now), now)
  {
  }

  /** The client `Get` creates on an empty queue keeps the invariant. */
  lemma NewClientPreservesValid(p: Pool, t: Transport, now: int)
    requires Valid(p) && |p.queue| == 0
    ensures Get(p, Dialed(t), now).Got? && Valid(Get(p, Dialed(t), now).pool)
  {
  }

  lemma ReservePreservesValid(p: Pool, now: int)
    requires Valid(p) && |p.queue| > 0
    ensures Valid(Reserve(p, now))
  {
    var n := |p.queue|;
    var r := Reserve(p, now);
    assert forall k :: 0 <= k < |r.queue| ==> r.queue[k] == p.queue[k];
  }

  lemma EvictPreservesValid(p: Pool, now: int)
    requires Valid(p)
    ensures Valid(EvictStale(p, now))
  {
    var r := EvictStale(p, now);
    if HeadStale(p, now) {
      assert forall k :: 0 <= k < |r.queue| ==> r.queue[k] == p.queue[k + 1];
    }
  }

  /** `Put` keeps the invariant. */
  lemma PutPreservesValid(p: Pool, s: SubClient, now: int)
    requires Valid(p)
    requires s.client.Some? ==> s.client.value in p.clients
    ensures Put(p, s, now).PutDone? ==> Valid(Put(p, s, now).pool)
  {
    var r := Put(p, s, now);
    if r.PutDone? && s.client.value in p.fullload {
      var id := s.client.value;
      assert forall k :: 0 <= k < |p.queue| ==> r.pool.queue[k] == p.queue[k];
      assert r.pool.queue[|p.queue|] == id;
    }
  }

  /** Round trip: returning the handle a `Get` just handed out restores the
      queue, the full-load set and the client's handle count, whether or
      not the `Get` made the client full-loaded (a full-loaded client went
      from the queue's tail and comes back to it). Only use times and the
      counters move. Assumes no queued client is stale, so `Get` evicts
      nothing. */
  lemma GetPutRoundTrip(p: Pool, dial: Dial, now: int, later: int)
    requires Valid(p) && |p.queue| > 0
    requires forall k :: 0 <= k < |p.queue| ==> now - p.clients[p.queue[k]].ts <= ClientIdleTimeout
    ensures var g := Get(p, dial, now);
      g.Got? && g.sub.client.Some? && g.sub.client.value in g.pool.clients &&
      var r := Put(g.pool, g.sub, later);
      var id := p.queue[|p.queue| - 1];
      && r.PutDone?
      && r.pool.queue == p.queue
      && r.pool.fullload == p.fullload
      && r.pool.clients.Keys == p.clients.Keys
      && r.pool.clients[id].subs == p.clients[id].subs
      && r.pool.clients[id].transport == p.clients[id].transport
      && (forall other :: other in p.clients && other != id ==> r.pool.clients[other] == p.clients[other])
      && r.pool.gets == Inc64(p.gets) && r.pool.puts == Inc64(p.puts)
  {
    var n := |p.queue|;
    var id := p.queue[n - 1];
    var g := Get(p, dial, now);
    var full := p.clients[id].subs + 1 == MaxSubsPerClient;
    var kept := if full then p.queue[..n - 1] else p.queue;
    if |kept| > 0 {
      assert kept[0] == p.queue[0];
      assert kept[0] == id ==> g.pool.clients[id].ts == now;
    }
    assert g.pool.queue == kept;
    if full {
      assert id !in p.fullload;
      assert kept + [id] == p.queue;
    } else {
      assert id !in p.fullload;
    }
  }

  /** `Close` does not stop the pool: after a clean close a `Get` on a
      non-empty queue still succeeds, handing out a handle whose connection
      reports `ClosedErr`. */
  lemma GetAfterClose(p: Pool, order: seq<nat>, dial: Dial, now: int)
    requires Valid(p) && |p.queue| > 0
    requires Distinct(order) && (forall k :: 0 <= k < |order| ==> order[k] in p.fullload)
    requires forall id :: id in p.fullload ==> id in order
    requires Close(p, order).err.None?
    ensures var q := Close(p, order).pool;
      var g := Get(q, dial, now);
      g.Got? && g.sub.client.Some? && g.sub.client.value in g.pool.clients &&
      Conn(g.pool, g.sub) == ConnErr(ClosedErr)
  {
    var q := Close(p, order).pool;
    var id := q.queue[|q.queue| - 1];
    assert q.clients[id].transport.shutdown;
    var reserved := Reserve(q, now);
    assert reserved.clients[id].transport.shutdown;
    var e := EvictStale(reserved, now);
    assert e.clients[id].transport.shutdown by {
      if HeadStale(reserved, now) && reserved.queue[0] != id {
        assert e.clients[id] == reserved.clients[id];
      }
    }
  }

  /** A handle to a client is usable exactly while that client's transport
      is up, and returning it clears it. */
  lemma PutClearsHandle(p: Pool, s: SubClient, now: int)
    requires WellFormed(p) && s.client.Some? && s.client.value in p.clients
    ensures Put(p, s, now).PutDone? ==> Conn(Put(p, s, now).pool, Put(p, s, now).sub) == ConnPanic
  {
  }
}

=== FILE: maintenance.dfy ===
/*
 * One tick of the pool's maintenance loop (`cleanPeriodically` in
 * pool.go): refill to `MaxIdle`, then one pass over the list that closes
 * and removes every closed or timed-out connection and every idle one
 * beyond the first `MaxIdle` idle ones, compacting the list in place.
 * The ticker, the goroutine and its termination channel are not modelled:
 * a tick is one atomic step.
 */
module Maintenance {
  import opened Common
  import Conn
  import GrpcPool

  /** A connection the sweep does not remove for being dead. */
  predicate Alive(c: Conn.GrpcConn, now: int) {
    !Conn.IsClosed(c) && !Conn.IsTimeout(c, now)
  }

  /** The sweep's decision for one connection, given the number of idle
      live connections counted before it: whether it stays, and the count
      afterwards. Every idle live connection is counted, kept or not. */
  function Verdict(c: Conn.GrpcConn, now: int, maxIdle: int, idle: int): (bool, int) {
    if !Alive(c, now) then (false, idle)
    else if Conn.IsIdle(c) then (idle + 1 <= maxIdle, idle + 1)
    else (true, idle)
  }

  /** The connections the sweep keeps, in list order (reference definition). */
  function Survivors(cs: seq<Conn.GrpcConn>, now: int, maxIdle: int, idle: int): seq<Conn.GrpcConn>
    decreases |cs|
  {
    if cs == [] then []
    else
      var (keep, idle') := Verdict(cs[0], now, maxIdle, idle);
      (if keep then [cs[0]] else []) + Survivors(cs[1..], now, maxIdle, idle')
  }

  /** The connections the sweep closes and removes, in list order. */
  function Removed(cs: seq<Conn.GrpcConn>, now: int, maxIdle: int, idle: int): seq<Conn.GrpcConn>
    decreases |cs|
  {
    if cs == [] then []
    else
      var (keep, idle') := Verdict(cs[0], now, maxIdle, idle);
      (if keep then [] else [cs[0]]) + Removed(cs[1..], now, maxIdle, idle')
  }

  /** The in-place compaction loop of the tick, as written: a removed
      element is closed, the tail is shifted left over it and the length
      shrinks; the index only advances past a kept element. */
  method Sweep(conns: seq<Conn.GrpcConn>, now: int, maxIdle: int)
    returns (kept: seq<Conn.GrpcConn>, closed: seq<Conn.Closed>)
    ensures kept == Survivors(conns, now, maxIdle, 0)
    ensures |closed| == |Removed(conns, now, maxIdle, 0)|
    ensures forall k :: 0 <= k < |closed| ==> closed[k] == Conn.Close(Removed(conns, now, maxIdle, 0)[k])
  {
    var cs := conns;
    var idleCount := 0;
    var l := |cs|;
    var i := 0;
    ghost var removed: seq<Conn.GrpcConn> := [];
    closed := [];
    while i < l
      invariant 0 <= i <= l == |cs|
      invariant cs[..i] + Survivors(cs[i..], now, maxIdle, idleCount) == Survivors(conns, now, maxIdle, 0)
      invariant removed + Removed(cs[i..], now, maxIdle, idleCount) == Removed(conns, now, maxIdle, 0)
      invariant |closed| == |removed|
      invariant forall k :: 0 <= k < |closed| ==> closed[k] == Conn.Close(removed[k])
      decreases l - i
    {
      ghost var idle0 := idleCount;
      if Conn.IsClosed(cs[i]) || Conn.IsTimeout(cs[i], now) {
        SweepDrop(cs, i, now, maxIdle, idle0, idleCount, removed);
        closed := closed + [Conn.Close(cs[i])];
        removed := removed + [cs[i]];
        cs := cs[..i] + cs[i + 1..];
        l := l - 1;
        continue;
      }
      if Conn.IsIdle(cs[i]) {
        idleCount := idleCount + 1;
        if idleCount > maxIdle {
          SweepDrop(cs, i, now, maxIdle, idle0, idleCount, removed);
          closed := closed + [Conn.Close(cs[i])];
          removed := removed + [cs[i]];
          cs := cs[..i] + cs[i + 1..];
          l := l - 1;
          continue;
        }
      }
      SweepKeep(cs, i, now, maxIdle, idle0, idleCount);
      i := i + 1;
    }
    assert cs[i..] == [];
    kept := cs;
  }

  /** Removing element `i`, whose verdict is to drop it, keeps what is
      left to keep and moves it from the part still to be removed to the
      part already removed. */
  lemma SweepDrop(cs: seq<Conn.GrpcConn>, i: nat, now: int, maxIdle: int, idle: int, idle': int,
                  removed: seq<Conn.GrpcConn>)
    requires i < |cs| && Verdict(cs[i], now, maxIdle, idle) == (false, idle')
    ensures var cs' := cs[..i] + cs[i + 1..];
      && |cs'| == |cs| - 1
      && cs'[..i] + Survivors(cs'[i..], now, maxIdle, idle') == cs[..i] + Survivors(cs[i..], now, maxIdle, idle)
      && (removed + [cs[i]]) + Removed(cs'[i..], now, maxIdle, idle') == removed + Removed(cs[i..], now, maxIdle, idle)
  {
    var cs' := cs[..i] + cs[i + 1..];
    assert cs'[..i] == cs[..i] && cs'[i..] == cs[i + 1..];
    assert cs[i..][0] == cs[i] && cs[i..][1..] == cs[i + 1..];
    var rest := Removed(cs[i + 1..], now, maxIdle, idle');
    assert (removed + [cs[i]]) + rest == removed + ([cs[i]] + rest);
  }

  /** Stepping past element `i`, whose verdict is to keep it, moves it into
      the kept prefix and removes nothing. */
  lemma SweepKeep(cs: seq<Conn.GrpcConn>, i: nat, now: int, maxIdle: int, idle: int, idle': int)
    requires i < |cs| && Verdict(cs[i], now, maxIdle, idle) == (true, idle')
    ensures cs[..i + 1] + Survivors(cs[i + 1..], now, maxIdle, idle') == cs[..i] + Survivors(cs[i..], now, maxIdle, idle)
    ensures Removed(cs[i + 1..], now, maxIdle, idle') == Removed(cs[i..], now, maxIdle, idle)
  {
    assert cs[i..][0] == cs[i] && cs[i..][1..] == cs[i + 1..];
    var later := Survivors(cs[i + 1..], now, maxIdle, idle');
    assert cs[..i + 1] == cs[..i] + [cs[i]];
    assert (cs[..i] + [cs[i]]) + later == cs[..i] + ([cs[i]] + later);
  }

  /** The connections as they stand after being closed. */
  function ClosedConns(closed: seq<Conn.Closed>): (cs: seq<Conn.GrpcConn>)
    ensures |cs| == |closed|
    ensures forall k :: 0 <= k < |closed| ==> cs[k] == closed[k].conn
  {
    seq(|closed|, k requires 0 <= k < |closed| => closed[k].conn)
  }

  datatype TickResult = Ticked(pool: GrpcPool.Pool, closed: seq<Conn.Closed>) | TickPanic(cause: string)

  /** One maintenance tick. A builder error during the refill panics (and,
      being in the maintenance goroutine, ends the program). The removed
      connections leave the list but not the program: handles bound to them
      may still be out, so they join the pool's retired connections. */
  method Tick(p: GrpcPool.Pool, builder: Builder, now: int) returns (r: TickResult)
    ensures GrpcPool.Fill(p, builder, 0, now).Err? <==> r.TickPanic?
    ensures r.TickPanic? ==> exists n: nat ::
      n < p.opt.maxIdle - |p.conns| && GrpcPool.FirstFailure(builder, 0, n, r.cause)
    ensures r.Ticked? ==> var q := GrpcPool.Fill(p, builder, 0, now).value;
      && r.pool == q.(conns := Survivors(q.conns, now, p.opt.maxIdle, 0), retired := p.retired + ClosedConns(r.closed))
      && |r.closed| == |Removed(q.conns, now, p.opt.maxIdle, 0)|
      && (forall k :: 0 <= k < |r.closed| ==>
            r.closed[k] == Conn.Close(Removed(q.conns, now, p.opt.maxIdle, 0)[k]))
      && |q.conns| >= p.opt.maxIdle
      && |r.pool.conns| + |r.closed| == |q.conns|
    ensures r.Ticked? && GrpcPool.Valid(p) && p.state == GrpcPool.Opened ==> GrpcPool.Valid(r.pool)
  {
    match GrpcPool.Fill(p, builder, 0, now)
    case Err(cause) =>
      r := TickPanic(cause);
    case Ok(q) =>
      var kept, closed := Sweep(q.conns, now, q.opt.maxIdle);
      r := Ticked(q.(conns := kept, retired := q.retired + ClosedConns(closed)), closed);
      SurvivorsPartition(q.conns, now, q.opt.maxIdle, 0);
      if GrpcPool.Valid(p) && p.state == GrpcPool.Opened {
        GrpcPool.FillPreservesValid(p, builder, 0, now);
        SurvivorsKeepValid(q, now);
        assert GrpcPool.Valid(r.pool) == GrpcPool.Valid(q.(conns := kept));
      }
  }

  /** `a` is `b` with some elements left out, order kept. */
  predicate SubseqOf<T(==)>(a: seq<T>, b: seq<T>)
    decreases |b|
  {
    if b == [] then a == []
    else (a != [] && a[0] == b[0] && SubseqOf(a[1..], b[1..])) || SubseqOf(a, b[1..])
  }

  /** The survivors are an order-preserving subsequence of the list. */
  lemma {:induction false} SurvivorsSubsequence(cs: seq<Conn.GrpcConn>, now: int, maxIdle: int, idle: int)
    ensures SubseqOf(Survivors(cs, now, maxIdle, idle), cs)
    decreases |cs|
  {
    if cs != [] {
      var (keep, idle') := Verdict(cs[0], now, maxIdle, idle);
      var rest := Survivors(cs[1..], now, maxIdle, idle');
      SurvivorsSubsequence(cs[1..], now, maxIdle, idle');
      if keep {
        var s := [cs[0]] + rest;
        assert Survivors(cs, now, maxIdle, idle) == s;
        assert s[0] == cs[0] && s[1..] == rest;
      } else {
        assert Survivors(cs, now, maxIdle, idle) == rest;
      }
    }
  }

  /** No survivor is closed or timed out. */
  lemma {:induction false} SurvivorsAlive(cs: seq<Conn.GrpcConn>, now: int, maxIdle: int, idle: int)
    ensures forall k :: 0 <= k < |Survivors(cs, now, maxIdle, idle)| ==>
      Alive(Survivors(cs, now, maxIdle, idle)[k], now)
    decreases |cs|
  {
    if cs != [] {
      var (keep, idle') := Verdict(cs[0], now, maxIdle, idle);
      SurvivorsAlive(cs[1..], now, maxIdle, idle');
    }
  }

  /** The live idle connections of a list, in order. */
  function LiveIdle(cs: seq<Conn.GrpcConn>, now: int): seq<Conn.GrpcConn>
    decreases |cs|
  {
    if cs == [] then []
    else (if Alive(cs[0], now) && Conn.IsIdle(cs[0]) then [cs[0]] else []) + LiveIdle(cs[1..], now)
  }

  /** The live busy (not idle) connections of a list, in order. */
  function LiveBusy(cs: seq<Conn.GrpcConn>, now: int): seq<Conn.GrpcConn>
    decreases |cs|
  {
    if cs == [] then []
    else (if Alive(cs[0], now) && !Conn.IsIdle(cs[0]) then [cs[0]] else []) + LiveBusy(cs[1..], now)
  }

  /** The first `n` elements of `s` (all of them if it is shorter, none if
      `n` is not positive). */
  function Take<T>(s: seq<T>, n: int): (r: seq<T>)
    ensures |r| <= |s| && (n <= 0 ==> r == [])
  {
    if n <= 0 then [] else if n >= |s| then s else s[..n]
  }

  /** Every live connection that is not idle survives, in order; of the live
      idle ones exactly the first `MaxIdle` (less those already counted)
      survive. Together with `SurvivorsAlive` this says precisely what the
      sweep keeps. */
  lemma {:induction false} SurvivorsByKind(cs: seq<Conn.GrpcConn>, now: int, maxIdle: int, idle: int)
    ensures LiveBusy(Survivors(cs, now, maxIdle, idle), now) == LiveBusy(cs, now)
    ensures LiveIdle(Survivors(cs, now, maxIdle, idle), now) == Take(LiveIdle(cs, now), maxIdle - idle)
    decreases |cs|
  {
    if cs != [] {
      var c := cs[0];
      var (keep, idle') := Verdict(c, now, maxIdle, idle);
      var rest := Survivors(cs[1..], now, maxIdle, idle');
      SurvivorsByKind(cs[1..], now, maxIdle, idle');
      var li := LiveIdle(cs[1..], now);
      if keep {
        var s := [c] + rest;
        assert Survivors(cs, now, maxIdle, idle) == s;
        assert s[0] == c && s[1..] == rest;
        if Alive(c, now) && Conn.IsIdle(c) {
          assert LiveIdle(cs, now) == [c] + li;
          assert LiveIdle(s, now) == [c] + Take(li, maxIdle - idle');
          TakeCons(c, li, maxIdle - idle);
        } else {
          assert LiveIdle(cs, now) == li;
        }
      } else {
        assert Survivors(cs, now, maxIdle, idle) == rest;
        if Alive(c, now) {
          assert LiveIdle(cs, now) == [c] + li;
          assert maxIdle - idle <= 0;
        } else {
          assert LiveIdle(cs, now) == li;
        }
      }
    }
  }

  lemma TakeCons<T>(x: T, s: seq<T>, n: int)
    requires n >= 1
    ensures Take([x] + s, n) == [x] + Take(s, n - 1)
  {
    if n - 1 < |s| {
      assert ([x] + s)[..n] == [x] + s[..n - 1];
    }
  }

  /** The sweep keeps at most `MaxIdle` idle connections. */
  lemma IdleSurvivorsCapped(cs: seq<Conn.GrpcConn>, now: int, maxIdle: int)
    ensures |LiveIdle(Survivors(cs, now, maxIdle, 0), now)| <= if maxIdle < 0 then 0 else maxIdle
  {
    SurvivorsByKind(cs, now, maxIdle, 0);
  }

  /** Survivors and removed connections split the list: nothing is lost or
      duplicated. */
  lemma {:induction false} SurvivorsPartition(cs: seq<Conn.GrpcConn>, now: int, maxIdle: int, idle: int)
    ensures multiset(Survivors(cs, now, maxIdle, idle)) + multiset(Removed(cs, now, maxIdle, idle)) == multiset(cs)
    ensures |Survivors(cs, now, maxIdle, idle)| + |Removed(cs, now, maxIdle, idle)| == |cs|
    decreases |cs|
  {
    if cs != [] {
      var (keep, idle') := Verdict(cs[0], now, maxIdle, idle);
      SurvivorsPartition(cs[1..], now, maxIdle, idle');
      var s := Survivors(cs[1..], now, maxIdle, idle');
      var d := Removed(cs[1..], now, maxIdle, idle');
      assert cs == [cs[0]] + cs[1..];
      assert multiset(cs) == multiset{cs[0]} + multiset(cs[1..]);
      if keep {
        assert Survivors(cs, now, maxIdle, idle) == [cs[0]] + s;
        assert Removed(cs, now, maxIdle, idle) == d;
      } else {
        assert Survivors(cs, now, maxIdle, idle) == s;
        assert Removed(cs, now, maxIdle, idle) == [cs[0]] + d;
      }
    }
  }

  /** Every removed connection was closed, timed out or idle: a live
      connection with a call in flight is never removed. */
  lemma {:induction false} RemovedDeadOrIdle(cs: seq<Conn.GrpcConn>, now: int, maxIdle: int, idle: int)
    ensures forall k :: 0 <= k < |Removed(cs, now, maxIdle, idle)| ==>
      !Alive(Removed(cs, now, maxIdle, idle)[k], now) || Conn.IsIdle(Removed(cs, now, maxIdle, idle)[k])
    decreases |cs|
  {
    if cs != [] {
      var (keep, idle') := Verdict(cs[0], now, maxIdle, idle);
      RemovedDeadOrIdle(cs[1..], now, maxIdle, idle');
      var d := Removed(cs[1..], now, maxIdle, idle');
      if keep {
        assert Removed(cs, now, maxIdle, idle) == d;
      } else {
        assert Removed(cs, now, maxIdle, idle) == [cs[0]] + d;
      }
    }
  }

  /** A subsequence of a list with increasing ids has increasing ids, and
      each of its elements is an element of the list. */
  lemma {:induction false} SubseqKeepsOrder(a: seq<Conn.GrpcConn>, b: seq<Conn.GrpcConn>)
    requires SubseqOf(a, b) && GrpcPool.IdsAscending(b)
    ensures GrpcPool.IdsAscending(a)
    ensures forall k :: 0 <= k < |a| ==> a[k] in b
    decreases |b|
  {
    if b != [] {
      if a != [] && a[0] == b[0] && SubseqOf(a[1..], b[1..]) {
        SubseqKeepsOrder(a[1..], b[1..]);
        forall k | 0 < k < |a| ensures a[0].id < a[k].id {
          assert a[k] == a[1..][k - 1];
          var j :| 0 <= j < |b[1..]| && b[1..][j] == a[k];
          assert b[j + 1] == a[k];
        }
      } else {
        SubseqKeepsOrder(a, b[1..]);
      }
    }
  }

  /** The sweep keeps the pool invariant. */
  lemma SurvivorsKeepValid(q: GrpcPool.Pool, now: int)
    requires GrpcPool.Valid(q)
    ensures GrpcPool.Valid(q.(conns := Survivors(q.conns, now, q.opt.maxIdle, 0)))
  {
    var s := Survivors(q.conns, now, q.opt.maxIdle, 0);
    SurvivorsSubsequence(q.conns, now, q.opt.maxIdle, 0);
    SubseqKeepsOrder(s, q.conns);
    if q.state == GrpcPool.Closed {
      assert s == [];
    }
  }

  /** The sweep can empty the pool: connections that nobody used for longer
      than the idle timeout are all removed, and the refill that runs before
      the sweep does not replace them. The next `Get` then takes an index
      modulo zero and panics. */
  lemma QuietPoolIsSweptEmpty(p: GrpcPool.Pool, builder: Builder, now: int, pick: nat, dial: Dial)
    requires p.state == GrpcPool.Opened && |p.conns| >= p.opt.maxIdle
    requires forall k :: 0 <= k < |p.conns| ==> Conn.IsTimeout(p.conns[k], now)
    ensures GrpcPool.Fill(p, builder, 0, now) == Ok(p)
    ensures Survivors(p.conns, now, p.opt.maxIdle, 0) == []
    ensures GrpcPool.Get(p.(conns := []), pick, dial, now) == GrpcPool.GetPanic
  {
    AllTimedOutRemoved(p.conns, now, p.opt.maxIdle, 0);
    assert p.conns[..|p.conns|] == p.conns;
  }

  lemma {:induction false} AllTimedOutRemoved(cs: seq<Conn.GrpcConn>, now: int, maxIdle: int, idle: int)
    requires forall k :: 0 <= k < |cs| ==> Conn.IsTimeout(cs[k], now)
    ensures Survivors(cs, now, maxIdle, idle) == []
    decreases |cs|
  {
    if cs != [] {
      AllTimedOutRemoved(cs[1..], now, maxIdle, idle);
    }
  }
}

=== FILE: options.dfy ===
/*
 * The pool's configuration record, its documented defaults and the
 * functional options that adjust it (options.go).
 */
module Options {
  import Common

  /** Durations are Go `time.Duration` values, in nanoseconds. */
  const Second: int := 1_000_000_000
  const Minute: int := 60 * Second

  const DefaultGrpcPoolSize: int := Common.MaxInt32
  const DefaultMaxStreamsClient: int := 100
  const DefaultMaxIdle: int := 3
  const DefaultCleanIntervalTime: int := Second
  const DefaultClientIdleTimeout: int := Minute

  /** The logging sink; only its identity matters to the model. */
  datatype Logger = StandardLogger | CustomLogger(name: string)

  /** The `option` record. */
  datatype Config = Config(
    grpcPoolSize: int,
    maxStreamsClient: int,
    maxIdle: int,
    cleanIntervalTime: int,
    clientIdleTimeout: int,
    nonblocking: bool,
    logger: Logger,
    debug: bool)

  /** `defaultOption`: the standard logger, both flags off. */
  const DefaultOption: Config := Config(
    DefaultGrpcPoolSize, DefaultMaxStreamsClient, DefaultMaxIdle,
    DefaultCleanIntervalTime, DefaultClientIdleTimeout,
    false, StandardLogger, false)

  /** `getDefaultOpt` hands out a copy of the defaults. Configurations are
      values here, so adjusting the copy can never reach `DefaultOption`. */
  function GetDefaultOpt(): (c: Config)
    ensures c.grpcPoolSize == 2_147_483_647
    ensures c.maxStreamsClient == 100
    ensures c.maxIdle == 3
    ensures c.cleanIntervalTime == 1_000_000_000
    ensures c.clientIdleTimeout == 60_000_000_000
    ensures !c.nonblocking && !c.debug
    ensures c.logger == StandardLogger
  {
    DefaultOption
  }

  /** The functional options (`Option` values built by the `With*` functions). */
  datatype Option =
    | WithGrpcPoolSize(size: int)
    | WithMaxStreamsClient(num: int)
    | WithMaxIdle(num: int)
    | WithCleanIntervalTime(t: int)
    | WithClientIdleTimeout(t: int)
    | WithNonblocking
    | WithLogger(logger: Logger)
    | WithDebug

  /** The fields of the record, and a uniform view of their values. */
  datatype Field =
    | PoolSizeField | MaxStreamsField | MaxIdleField | CleanIntervalField
    | IdleTimeoutField | NonblockingField | LoggerField | DebugField

  datatype Value = IntValue(i: int) | FlagValue(b: bool) | LoggerValue(l: Logger)

  function FieldValue(c: Config, f: Field): Value {
    match f
    case PoolSizeField => IntValue(c.grpcPoolSize)
    case MaxStreamsField => IntValue(c.maxStreamsClient)
    case MaxIdleField => IntValue(c.maxIdle)
    case CleanIntervalField => IntValue(c.cleanIntervalTime)
    case IdleTimeoutField => IntValue(c.clientIdleTimeout)
    case NonblockingField => FlagValue(c.nonblocking)
    case LoggerField => LoggerValue(c.logger)
    case DebugField => FlagValue(c.debug)
  }

  /** The field an option writes, and the value it writes there. */
  function Target(o: Option): Field {
    match o
    case WithGrpcPoolSize(_) => PoolSizeField
    case WithMaxStreamsClient(_) => MaxStreamsField
    case WithMaxIdle(_) => MaxIdleField
    case WithCleanIntervalTime(_) => CleanIntervalField
    case WithClientIdleTimeout(_) => IdleTimeoutField
    case WithNonblocking => NonblockingField
    case WithLogger(_) => LoggerField
    case WithDebug => DebugField
  }

  function Written(o: Option): Value {
    match o
    case WithGrpcPoolSize(n) => IntValue(n)
    case WithMaxStreamsClient(n) => IntValue(n)
    case WithMaxIdle(n) => IntValue(n)
    case WithCleanIntervalTime(t) => IntValue(t)
    case WithClientIdleTimeout(t) => IntValue(t)
    case WithNonblocking => FlagValue(true)
    case WithLogger(l) => LoggerValue(l)
    case WithDebug => FlagValue(true)
  }

  /** Two records agree on a field exactly when their values for it agree;
      agreeing on every field makes them equal. */
  lemma Extensional(a: Config, b: Config)
    requires forall f :: FieldValue(a, f) == FieldValue(b, f)
    ensures a == b
  {
    assert FieldValue(a, PoolSizeField) == FieldValue(b, PoolSizeField);
    assert FieldValue(a, MaxStreamsField) == FieldValue(b, MaxStreamsField);
    assert FieldValue(a, MaxIdleField) == FieldValue(b, MaxIdleField);
    assert FieldValue(a, CleanIntervalField) == FieldValue(b, CleanIntervalField);
    assert FieldValue(a, IdleTimeoutField) == FieldValue(b, IdleTimeoutField);
    assert FieldValue(a, NonblockingField) == FieldValue(b, NonblockingField);
    assert FieldValue(a, LoggerField) == FieldValue(b, LoggerField);
    assert FieldValue(a, DebugField) == FieldValue(b, DebugField);
  }

  /** Applying one option: its own field takes the written value and every
      other field is left as it was. */
  function Apply(o: Option, c: Config): (r: Config)
    ensures FieldValue(r, Target(o)) == Written(o)
    ensures forall f :: f != Target(o) ==> FieldValue(r, f) == FieldValue(c, f)
  {
    match o
    case WithGrpcPoolSize(n) => c.(grpcPoolSize := n)
    case WithMaxStreamsClient(n) => c.(maxStreamsClient := n)
    case WithMaxIdle(n) => c.(maxIdle := n)
    case WithCleanIntervalTime(t) => c.(cleanIntervalTime := t)
    case WithClientIdleTimeout(t) => c.(clientIdleTimeout := t)
    case WithNonblocking => c.(nonblocking := true)
    case WithLogger(l) => c.(logger := l)
    case WithDebug => c.(debug := true)
  }

  /** Every option is a plain setter, so applying it twice is applying it
      once; in particular `WithNonblocking` and `WithDebug` set their flag
      whatever it was before. */
  lemma ApplyIdempotent(o: Option, c: Config)
    ensures Apply(o, Apply(o, c)) == Apply(o, c)
    ensures o == WithNonblocking ==> Apply(o, c).nonblocking
    ensures o == WithDebug ==> Apply(o, c).debug
  {
  }

  /** `NewPool` applies the options in the order given. */
  function ApplyAll(opts: seq<Option>, c: Config): Config
    decreases |opts|
  {
    if opts == [] then c else ApplyAll(opts[1..], Apply(opts[0], c))
  }

  /** The configuration a pool built with these options uses. */
  function Configure(opts: seq<Option>): Config {
    ApplyAll(opts, GetDefaultOpt())
  }

  /** The position of the last option in `opts` that writes field `f`. */
  function LastWriter(opts: seq<Option>, f: Field): (r: Common.Option<nat>)
    ensures r.Some? ==> r.value < |opts| && Target(opts[r.value]) == f
    ensures r.Some? ==> forall j :: r.value < j < |opts| ==> Target(opts[j]) != f
    ensures r.None? ==> forall j :: 0 <= j < |opts| ==> Target(opts[j]) != f
    decreases |opts|
  {
    if opts == [] then Common.None
    else if Target(opts[|opts| - 1]) == f then Common.Some(|opts| - 1)
    else LastWriter(opts[..|opts| - 1], f)
  }

  /** Later options win: after applying `opts`, each field holds the value
      of the last option that writes it, or its starting value if none does. */
  lemma {:induction false} LaterOptionWins(opts: seq<Option>, c: Config, f: Field)
    ensures FieldValue(ApplyAll(opts, c), f) ==
      match LastWriter(opts, f)
      case Some(j) => Written(opts[j])
      case None => FieldValue(c, f)
    decreases |opts|
  {
    if opts == [] {
    } else {
      var n := |opts|;
      var init := opts[..n - 1];
      ApplyAllSnoc(init, opts[n - 1], c);
      assert init + [opts[n - 1]] == opts;
      LaterOptionWins(init, c, f);
      if Target(opts[n - 1]) != f {
        assert LastWriter(opts, f) == LastWriter(init, f);
        var w := LastWriter(init, f);
        if w.Some? {
          assert opts[w.value] == init[w.value];
        }
      }
    }
  }

  /** Applying options one at a time from the left is applying the last one
      to the result of the others. */
  lemma {:induction false} ApplyAllSnoc(opts: seq<Option>, o: Option, c: Config)
    ensures ApplyAll(opts + [o], c) == Apply(o, ApplyAll(opts, c))
    decreases |opts|
  {
    if opts == [] {
      assert [o][1..] == [];
    } else {
      assert (opts + [o])[1..] == opts[1..] + [o];
      ApplyAllSnoc(opts[1..], o, Apply(opts[0], c));
    }
  }
}

=== FILE: pool.dfy ===
/*
 * The connection pool of pool.go: construction, `Get` with its warm-subset
 * selection, fallback scan and growth, `Put`, `Close` and the guarded
 * growth step `createNewGrpcConn`. Locks are gone (each operation is one
 * atomic step), the clock is an integer `now`, the random index
 * `time.Now().UnixNano() % l` is `pick % l` for a caller-chosen `pick`,
 * and the builder's outcomes are parameters.
 */
module GrpcPool {
  import opened Common
  import Options
  import Conn

  datatype State = Opened | Closed

  /** `Pool`. `lastId` is the connection-id counter (a process-wide int32 in
      the Go code): the most recent id handed out. `retired` holds the
      connections the maintenance sweep removed: handles bound to them may
      still be out, and `Put` still gives their slots back to them. */
  datatype Pool = Pool(
    state: State,
    opt: Options.Config,
    conns: seq<Conn.GrpcConn>,
    lastId: int,
    retired: seq<Conn.GrpcConn>)

  predicate IdsAscending(cs: seq<Conn.GrpcConn>) {
    forall i, j :: 0 <= i < j < |cs| ==> cs[i].id < cs[j].id
  }

  /** A connection as the pool creates and keeps it: a counter in range,
      the pool's settings, and an id already handed out. */
  predicate Fits(p: Pool, c: Conn.GrpcConn) {
    && Conn.Valid(c)
    && c.maxStreamsClient == p.opt.maxStreamsClient
    && c.clientIdleTimeout == p.opt.clientIdleTimeout
    && c.id <= p.lastId
  }

  /** The pool invariant: every connection fits, ids increase along the
      list (so they are unique and newer connections sit later), and a
      closed pool holds no connections. */
  predicate Valid(p: Pool) {
    && 0 <= p.opt.maxStreamsClient <= MaxInt32
    && (p.state == Closed ==> p.conns == [])
    && IdsAscending(p.conns)
    && (forall i :: 0 <= i < |p.conns| ==> Fits(p, p.conns[i]))
  }

  /** The connection `newGrpcConn` builds around transport `t`, with the next id. */
  function Fresh(p: Pool, t: Transport, now: int): Conn.GrpcConn {
    Conn.NewGrpcConn(p.lastId + 1, t, p.opt.maxStreamsClient, p.opt.clientIdleTimeout, now)
  }

  /** Appending a freshly built connection. */
  function Spawn(p: Pool, t: Transport, now: int): (q: Pool)
    ensures q.state == p.state && q.opt == p.opt && q.lastId == p.lastId + 1 && q.retired == p.retired
    ensures |q.conns| == |p.conns| + 1 && q.conns[..|p.conns|] == p.conns
    ensures q.conns[|p.conns|] == Fresh(p, t, now)
    ensures forall i :: 0 <= i < |p.conns| && p.conns[i].id <= p.lastId ==>
      p.conns[i].id < q.conns[|p.conns|].id
    ensures Valid(p) && p.state == Opened ==> Valid(q)
  {
    var q := p.(conns := p.conns + [Fresh(p, t, now)], lastId := p.lastId + 1);
    assert forall i :: 0 <= i < |p.conns| ==> q.conns[i] == p.conns[i];
    q
  }

  /** Builder call number `k + n` is the first failing one from call `k` on. */
  predicate FirstFailure(builder: Builder, k: nat, n: nat, cause: string) {
    && builder(k + n) == DialFailed(cause)
    && forall m: nat :: k <= m < k + n ==> builder(m).Dialed?
  }

  /** `q` is `p` with connections appended, one per successful builder call
      from call `k` on, each fresh (idle, last used `now`, next id), until
      `MaxIdle` is reached. */
  predicate FilledFrom(p: Pool, q: Pool, builder: Builder, k: nat, now: int) {
    && q.state == p.state && q.opt == p.opt && q.retired == p.retired
    && |q.conns| == (if |p.conns| < p.opt.maxIdle then p.opt.maxIdle else |p.conns|)
    && q.conns[..|p.conns|] == p.conns
    && q.lastId == p.lastId + (|q.conns| - |p.conns|)
    && (forall m: nat :: k <= m < k + (|q.conns| - |p.conns|) ==>
          builder(m).Dialed? &&
          q.conns[|p.conns| + (m - k)] == Conn.NewGrpcConn(p.lastId + 1 + (m - k),
            builder(m).transport, p.opt.maxStreamsClient, p.opt.clientIdleTimeout, now))
  }

  /** The fill loop shared by `NewPool` and the maintenance tick: while fewer
      than `MaxIdle` connections exist, call the builder (calls `k`, `k+1`,
      ...) and append, stopping at the first builder error. */
  function Fill(p: Pool, builder: Builder, k: nat, now: int): (r: Result<Pool, string>)
    ensures r.Ok? ==> FilledFrom(p, r.value, builder, k, now)
    ensures r.Err? ==> exists n: nat :: n < p.opt.maxIdle - |p.conns| && FirstFailure(builder, k, n, r.error)
    decreases p.opt.maxIdle - |p.conns|
  {
    if |p.conns| >= p.opt.maxIdle then
      assert p.conns[..|p.conns|] == p.conns;
      Ok(p)
    else match builder(k)
      case DialFailed(cause) =>
        assert FirstFailure(builder, k, 0, cause);
        Err(cause)
      case Dialed(t) =>
        var p1 := Spawn(p, t, now);
        var r := Fill(p1, builder, k + 1, now);
        if r.Err? then
          var n: nat :| n < p1.opt.maxIdle - |p1.conns| && FirstFailure(builder, k + 1, n, r.error);
          assert FirstFailure(builder, k, n + 1, r.error) by {
            assert k + (n + 1) == (k + 1) + n;
          }
          r
        else
          FilledFromStep(p, t, r.value, builder, k, now);
          r
  }

  /** One successful builder call followed by a fill from the next call is a
      fill from this call. */
  lemma FilledFromStep(p: Pool, t: Transport, q: Pool, builder: Builder, k: nat, now: int)
    requires |p.conns| < p.opt.maxIdle && builder(k) == Dialed(t)
    requires FilledFrom(Spawn(p, t, now), q, builder, k + 1, now)
    ensures FilledFrom(p, q, builder, k, now)
  {
    var p1 := Spawn(p, t, now);
    assert q.conns[..|p.conns|] == q.conns[..|p1.conns|][..|p.conns|];
    forall m: nat | k <= m < k + (|q.conns| - |p.conns|)
      ensures builder(m).Dialed?
      ensures q.conns[|p.conns| + (m - k)] == Conn.NewGrpcConn(p.lastId + 1 + (m - k),
        builder(m).transport, p.opt.maxStreamsClient, p.opt.clientIdleTimeout, now)
    {
      if m == k {
        assert q.conns[|p.conns|] == q.conns[..|p1.conns|][|p.conns|] == p1.conns[|p.conns|];
      } else {
        assert |p1.conns| + (m - (k + 1)) == |p.conns| + (m - k);
      }
    }
  }

  /** Filling keeps the pool invariant: the appended connections are fresh,
      fit the configuration, and carry increasing new ids. */
  lemma FillPreservesValid(p: Pool, builder: Builder, k: nat, now: int)
    requires Valid(p) && p.state == Opened
    ensures Fill(p, builder, k, now).Ok? ==> Valid(Fill(p, builder, k, now).value)
    decreases p.opt.maxIdle - |p.conns|
  {
    if |p.conns| < p.opt.maxIdle && builder(k).Dialed? {
      FillPreservesValid(Spawn(p, builder(k).transport, now), builder, k + 1, now);
    }
  }

  /** What `NewPool` produces: a pool, the builder's error, or a runtime
      panic. */
  datatype Built = Built(pool: Pool) | BuildFailed(err: Error) | BuildPanic

  /** The empty pool `NewPool` starts filling, for a configuration. */
  function Empty(opt: Options.Config, lastId: int): (p: Pool)
    ensures p.state == Opened && p.opt == opt && p.conns == [] && p.retired == []
  {
    Pool(Opened, opt, [], lastId, [])
  }

  /** The largest capacity Go's `make` accepts for a slice of pointers on a
      64-bit platform: the allocation limit of 2^48 bytes over 8-byte
      elements. */
  const MaxSliceCap: int := 0x2000_0000_0000

  /** `NewPool`: the options are applied to the defaults in order. The
      connection list is allocated with capacity `MaxIdle`, which panics for
      a negative `MaxIdle` and for one above `MaxSliceCap`. Then exactly `MaxIdle` connections are built in
      order, from the builder's first calls; the first builder error aborts
      construction and is returned as is. */
  function NewPool(opts: seq<Options.Option>, builder: Builder, now: int, lastId: int): (r: Built)
    ensures r.BuildPanic? <==>
      Options.Configure(opts).maxIdle < 0 || Options.Configure(opts).maxIdle > MaxSliceCap
    ensures r.Built? ==>
      && r.pool.state == Opened && r.pool.opt == Options.Configure(opts)
      && FilledFrom(Empty(Options.Configure(opts), lastId), r.pool, builder, 0, now)
    ensures r.BuildFailed? ==> r.err.Builder?
    ensures r.BuildFailed? ==>
      exists n: nat :: n < Options.Configure(opts).maxIdle && FirstFailure(builder, 0, n, r.err.cause)
  {
    var opt := Options.Configure(opts);
    if opt.maxIdle < 0 || opt.maxIdle > MaxSliceCap then BuildPanic
    else match Fill(Empty(opt, lastId), builder, 0, now)
      case Ok(p) => Built(p)
      case Err(cause) => BuildFailed(Builder(cause))
  }

  /** A pool fresh from `NewPool` holds exactly `MaxIdle` idle connections,
      the j-th built by builder call j with id `lastId + 1 + j`, has retired
      none, and satisfies the pool invariant. */
  lemma NewPoolFresh(opts: seq<Options.Option>, builder: Builder, now: int, lastId: int)
    requires NewPool(opts, builder, now, lastId).Built?
    requires 0 <= Options.Configure(opts).maxStreamsClient <= MaxInt32
    ensures var p := NewPool(opts, builder, now, lastId).pool;
      && |p.conns| == p.opt.maxIdle
      && p.retired == []
      && Valid(p)
      && forall j :: 0 <= j < |p.conns| ==>
           && builder(j).Dialed? && p.conns[j].transport == builder(j).transport
           && p.conns[j].id == lastId + 1 + j && p.conns[j].ts == now
           && Conn.IsIdle(p.conns[j])
  {
    var start := Empty(Options.Configure(opts), lastId);
    var p := NewPool(opts, builder, now, lastId).pool;
    FillPreservesValid(start, builder, 0, now);
    forall j | 0 <= j < |p.conns|
      ensures builder(j).Dialed? && p.conns[j].transport == builder(j).transport
      ensures p.conns[j].id == lastId + 1 + j && p.conns[j].ts == now
      ensures Conn.IsIdle(p.conns[j])
    {
      assert 0 + (j - 0) == j;
    }
  }

  /** round(0.8 * l) for a connection count l, in integers. The fractional
      part of 0.8 * l is a multiple of 0.2, so there are no ties. */
  function WarmCount(l: nat): (w: nat)
    ensures -2 <= 5 * w - 4 * l <= 2
    ensures l >= 1 ==> 1 <= w <= l
  {
    (4 * l + 2) / 5
  }

  /** The index `Get` tries first: any connection while the pool is at or
      below `MaxIdle`, otherwise one of the first round(0.8 * l) "warm" ones.
      Every index of that range is chosen by some pick. */
  function ChosenIndex(l: nat, maxIdle: int, pick: nat): (i: nat)
    requires l > 0
    ensures i < l
    ensures l > maxIdle ==> i < WarmCount(l)
    ensures l <= maxIdle && pick < l ==> i == pick
    ensures l > maxIdle && pick < WarmCount(l) ==> i == pick
  {
    var n := if l <= maxIdle then l else WarmCount(l);
    ModBelow(pick, n);
    pick % n
  }

  lemma ModBelow(a: nat, n: nat)
    requires n > 0
    ensures a % n < n
    ensures a < n ==> a % n == a
  {
  }

  /** `createNewGrpcConn(l)`: `l` is the length the caller saw. Growth
      happens only if the length is unchanged and not above the size
      ceiling (a strict test, so a pool at the ceiling still grows once) and
      the builder succeeds; the builder's error is returned as is. */
  function CreateNewGrpcConn(p: Pool, l: int, dial: Dial, now: int): (r: (Pool, Option<Error>))
    ensures |r.0.conns| == |p.conns| + 1 <==>
      l == |p.conns| && |p.conns| <= p.opt.grpcPoolSize && dial.Dialed?
    ensures |r.0.conns| != |p.conns| + 1 ==> r.0 == p
    ensures |r.0.conns| == |p.conns| + 1 ==> r.0 == Spawn(p, dial.transport, now)
    ensures r.0.state == p.state && r.0.opt == p.opt && r.0.retired == p.retired
    ensures |r.0.conns| == |p.conns| + 1 ==>
      r.0.conns[..|p.conns|] == p.conns && r.0.conns[|p.conns|].transport == dial.transport
    ensures r.1.Some? <==> l == |p.conns| && |p.conns| <= p.opt.grpcPoolSize && dial.DialFailed?
    ensures r.1.Some? ==> r.1.value == Builder(dial.cause)
    ensures |p.conns| <= p.opt.grpcPoolSize + 1 ==> |r.0.conns| <= p.opt.grpcPoolSize + 1
    ensures Valid(p) && p.state == Opened ==> Valid(r.0)
  {
    if l != |p.conns| then (p, None)
    else if l != |p.conns| || |p.conns| > p.opt.grpcPoolSize then (p, None)
    else match dial
      case DialFailed(cause) => (p, Some(Builder(cause)))
      case Dialed(t) => (Spawn(p, t, now), None)
  }

  /** One return of `Get`: a handle and/or an error (Go's pair), a request to
      run `Get` again after growth, or a runtime panic. */
  datatype GetResult =
    | Returned(pool: Pool, handle: Option<Conn.LogicConn>, err: Option<Error>)
    | Retry(pool: Pool)
    | GetPanic

  function HandleOf(a: Result<Conn.LogicConn, Error>): Option<Conn.LogicConn> {
    if a.Ok? then Some(a.value) else None
  }

  /** The fallback scan of `Get`: `get` is called on every connection from
      index `i` to the end, in order, without stopping at a success; the
      outcome kept is that of the last call (or `last` if there was none). */
  function Scan(cs: seq<Conn.GrpcConn>, i: nat, now: int, last: Result<Conn.LogicConn, Error>)
    : (r: (seq<Conn.GrpcConn>, Result<Conn.LogicConn, Error>))
    requires i <= |cs|
    ensures |r.0| == |cs|
    ensures forall k :: 0 <= k < i ==> r.0[k] == cs[k]
    ensures forall k :: i <= k < |cs| ==> r.0[k] == Conn.Get(cs[k], now).conn
    ensures r.1 == if i == |cs| then last else Conn.Get(cs[|cs| - 1], now).result
    decreases |cs| - i
  {
    if i == |cs| then (cs, last)
    else
      var a := Conn.Get(cs[i], now);
      Scan(cs[i := a.conn], i + 1, now, a.result)
  }

  /** Growth after a failed acquisition: a builder error is returned,
      otherwise `Get` runs again. */
  function GrowAndRetry(p: Pool, l: int, dial: Dial, now: int): (r: GetResult)
    ensures r.Retry? || r.Returned?
    ensures r.Returned? ==> r.handle.None? && r.err.Some? && r.err.value.Builder?
  {
    var (q, err) := CreateNewGrpcConn(p, l, dial, now);
    if err.Some? then Returned(q, None, err) else Retry(q)
  }

  /** The fallback of a grown pool whose warm try failed: the scan from
      `from`, then growth if the scan's last outcome is a failure. */
  function ScanThenGrow(p: Pool, from: nat, last: Result<Conn.LogicConn, Error>, dial: Dial, now: int): (r: GetResult)
    requires from <= |p.conns|
    ensures r.Returned? || r.Retry?
  {
    var sc := Scan(p.conns, from, now, last);
    var p2 := p.(conns := sc.0);
    if sc.1.Err? then GrowAndRetry(p2, |sc.0|, dial, now)
    else Returned(p2, Some(sc.1.value), None)
  }

  /** One attempt of `Get` (the Go recursion is `Retry`). */
  function Get(p: Pool, pick: nat, dial: Dial, now: int): (r: GetResult)
    ensures p.state == Closed ==> r == Returned(p, None, Some(PoolClosed))
    ensures r.GetPanic? <==> p.state == Opened && |p.conns| == 0
    ensures r.Returned? && r.handle.Some? ==> r.err.None?
    ensures r.Returned? && r.err.Some? ==> r.handle.None? && (r.err == Some(PoolClosed) || r.err.value.Builder?)
    ensures r.Retry? ==>
      || (|p.conns| <= p.opt.grpcPoolSize && |r.pool.conns| == |p.conns| + 1)
      || (|p.conns| > p.opt.grpcPoolSize && |r.pool.conns| == |p.conns|)
    ensures r.Returned? ==> |r.pool.conns| == |p.conns|
    ensures r.Returned? || r.Retry? ==>
      r.pool.opt == p.opt && r.pool.state == p.state && r.pool.lastId >= p.lastId
    ensures r.Returned? || r.Retry? ==> r.pool.retired == p.retired
  {
    if p.state == Closed then Returned(p, None, Some(PoolClosed))
    else if |p.conns| == 0 then
      assert p.state == Opened;
      GetPanic
    else
      var l := |p.conns|;
      var idx := ChosenIndex(l, p.opt.maxIdle, pick);
      var a := Conn.Get(p.conns[idx], now);
      var p1 := p.(conns := p.conns[idx := a.conn]);
      if l <= p.opt.maxIdle then
        if a.result == Err(GrpcOverload) then GrowAndRetry(p1, l, dial, now)
        else Returned(p1, HandleOf(a.result), None)
      else if a.result.Ok? then Returned(p1, Some(a.result.value), None)
      else
        ScanThenGrow(p1, idx + 1, a.result, dial, now)
  }

  /** `Get` including its recursion, one attempt per `(pick, dial)` pair;
      `Retry` means the attempts ran out while the Go code would go on. */
  function GetWithRetries(p: Pool, attempts: seq<(nat, Dial)>, now: int): (r: GetResult)
    requires |attempts| > 0
    ensures r.Returned? || r.Retry? ==> |r.pool.conns| <= |p.conns| + |attempts|
    ensures r.Returned? || r.Retry? ==>
      |r.pool.conns| <= if |p.conns| <= p.opt.grpcPoolSize + 1 then p.opt.grpcPoolSize + 1 else |p.conns|
    ensures r.Returned? || r.Retry? ==> r.pool.opt == p.opt
    decreases |attempts|
  {
    var r := Get(p, attempts[0].0, attempts[0].1, now);
    if r.Retry? && |attempts| > 1 then GetWithRetries(r.pool, attempts[1..], now)
    else r
  }

  /** The position of the connection with a given id, if it is in the list. */
  function IndexOfId(cs: seq<Conn.GrpcConn>, id: int): (r: Option<nat>)
    ensures r.Some? ==> r.value < |cs| && cs[r.value].id == id
    ensures r.Some? ==> forall k :: 0 <= k < r.value ==> cs[k].id != id
    ensures r.None? ==> forall k :: 0 <= k < |cs| ==> cs[k].id != id
    decreases |cs|
  {
    if cs == [] then None
    else if cs[0].id == id then Some(0)
    else match IndexOfId(cs[1..], id)
      case None => None
      case Some(k) => Some(k + 1)
  }

  datatype PutResult = PutDone(pool: Pool) | PutPanic

  /** `Put`: nothing happens on a closed pool. Otherwise the slot goes back
      to the handle's connection (`recycle`), whether that connection is
      still pooled or was retired by the sweep. The handle is a Go value
      passed by copy: `recycle` clears the copy it puts on the free list,
      and the caller's handle keeps its connection, so putting it again
      releases again. The nil handle (`Get` returning neither handle nor
      error) fails the type assertion, and a handle with no connection makes
      `recycle` dereference nil: both panic. */
  function Put(p: Pool, lc: Option<Conn.LogicConn>): (r: PutResult)
    ensures p.state == Closed ==> r == PutDone(p)
    ensures p.state == Opened && (lc.None? || lc.value.gconn.None?) ==> r.PutPanic?
    ensures r.PutDone? ==>
      && r.pool.state == p.state && r.pool.opt == p.opt && r.pool.lastId == p.lastId
      && |r.pool.conns| == |p.conns| && |r.pool.retired| == |p.retired|
      && (forall k :: 0 <= k < |p.conns| ==> r.pool.conns[k].id == p.conns[k].id)
  {
    if p.state == Closed then PutDone(p)
    else match lc
      case None => PutPanic
      case Some(h) =>
        match h.gconn
        case None => PutPanic
        case Some(id) =>
          match IndexOfId(p.conns, id)
          case Some(i) =>
            (match Conn.Recycle(p.conns[i], h)
             case RecyclePanic => PutPanic
             case Recycled(c, _) => PutDone(p.(conns := p.conns[i := c])))
          case None =>
            match IndexOfId(p.retired, id)
            case None => PutDone(p)
            case Some(j) =>
              match Conn.Recycle(p.retired[j], h)
              case RecyclePanic => PutPanic
              case Recycled(c, _) => PutDone(p.(retired := p.retired[j := c]))
  }

  /** Closing every connection in order, whatever each close reports. */
  function CloseEach(cs: seq<Conn.GrpcConn>): (r: seq<Conn.Closed>)
    ensures |r| == |cs|
    ensures forall k :: 0 <= k < |cs| ==> r[k] == Conn.Close(cs[k])
    decreases |cs|
  {
    if cs == [] then [] else [Conn.Close(cs[0])] + CloseEach(cs[1..])
  }

  datatype CloseResult = PoolShut(pool: Pool, closed: seq<Conn.Closed>) | ClosePanic

  /** `Close`: every connection is closed even when some report errors (they
      are only logged), the list is emptied and the pool marked closed.
      Closing the termination channel a second time panics, so a second
      `Close` is not a no-op. */
  function Close(p: Pool): (r: CloseResult)
    ensures r.ClosePanic? <==> p.state == Closed
    ensures r.PoolShut? ==>
      && r.pool.state == Closed && r.pool.conns == []
      && r.pool.opt == p.opt && r.pool.lastId == p.lastId
      && |r.closed| == |p.conns|
      && forall k :: 0 <= k < |p.conns| ==>
           r.closed[k].conn.id == p.conns[k].id && Conn.IsClosed(r.closed[k].conn)
  {
    if p.state == Closed then ClosePanic
    else PoolShut(p.(conns := [], state := Closed), CloseEach(p.conns))
  }

  /** After `Close`, `Get` fails with `ErrPoolClosed` and changes nothing,
      `Put` is a no-op, and a second `Close` panics. */
  lemma AfterClose(p: Pool, pick: nat, dial: Dial, now: int, lc: Option<Conn.LogicConn>)
    requires Close(p).PoolShut?
    ensures var q := Close(p).pool;
      && Get(q, pick, dial, now) == Returned(q, None, Some(PoolClosed))
      && Put(q, lc) == PutDone(q)
      && Close(q).ClosePanic?
      && Valid(q) == (0 <= q.opt.maxStreamsClient <= MaxInt32)
  {
  }

  /** A small pool (at most `MaxIdle` connections) tries exactly the chosen
      connection. Success reserves one slot there and nothing else changes;
      `ErrConnClosed` is swallowed and `Get` returns neither handle nor error;
      overload leads to growth and another attempt, or to the builder's
      error. */
  lemma GetSmallPool(p: Pool, pick: nat, dial: Dial, now: int)
    requires p.state == Opened && 0 < |p.conns| <= p.opt.maxIdle
    ensures var i := ChosenIndex(|p.conns|, p.opt.maxIdle, pick);
      var a := Conn.Get(p.conns[i], now);
      var r := Get(p, pick, dial, now);
      && (a.result.Ok? ==>
            r == Returned(p.(conns := p.conns[i := a.conn]),
                          Some(Conn.LogicConn(Some(p.conns[i].id), Some(p.conns[i].transport))), None))
      && (a.result == Err(ConnClosed) ==> r == Returned(p, None, None))
      && (a.result == Err(GrpcOverload) ==>
            || (r.Retry? && r.pool.conns[..|p.conns|] == p.conns)
            || (r.Retry? && r.pool == p && |p.conns| > p.opt.grpcPoolSize)
            || r == Returned(p, None, Some(Builder(dial.cause))))
  {
    var i := ChosenIndex(|p.conns|, p.opt.maxIdle, pick);
    var a := Conn.Get(p.conns[i], now);
    if a.result.Err? {
      assert p.conns[i := a.conn] == p.conns;
    }
  }

  /** A grown pool (more than `MaxIdle` connections) first tries one of its
      warm connections, the first round(0.8 * l); success there reserves one
      slot and changes nothing else. */
  lemma GetGrownPoolWarm(p: Pool, pick: nat, dial: Dial, now: int)
    requires p.state == Opened && 0 < |p.conns| && |p.conns| > p.opt.maxIdle
    ensures var i := ChosenIndex(|p.conns|, p.opt.maxIdle, pick);
      var a := Conn.Get(p.conns[i], now);
      && i < WarmCount(|p.conns|)
      && (a.result.Ok? ==>
            Get(p, pick, dial, now) == Returned(p.(conns := p.conns[i := a.conn]), Some(a.result.value), None))
  {
  }

  /** If the warm connection fails, `get` is called on every later
      connection in order without stopping at a success; the handle returned
      is the last connection's, and growth is attempted only when that last
      call failed (or there was no later connection). Slots reserved earlier
      in the scan stay reserved. */
  lemma GetGrownPoolScan(p: Pool, pick: nat, dial: Dial, now: int)
    requires p.state == Opened && 0 < |p.conns| && |p.conns| > p.opt.maxIdle
    requires Conn.Get(p.conns[ChosenIndex(|p.conns|, p.opt.maxIdle, pick)], now).result.Err?
    ensures var l := |p.conns|;
      var i := ChosenIndex(l, p.opt.maxIdle, pick);
      var last := Conn.Get(p.conns[l - 1], now);
      var r := Get(p, pick, dial, now);
      && (r.Returned? || r.Retry?)
      && l <= |r.pool.conns|
      && (forall k :: 0 <= k <= i ==> r.pool.conns[k] == p.conns[k])
      && (forall k :: i < k < l ==> r.pool.conns[k] == Conn.Get(p.conns[k], now).conn)
      && (i + 1 < l && last.result.Ok? ==> r.Returned? && r.handle == Some(last.result.value) && r.err.None?)
      && (i + 1 == l || last.result.Err? ==>
            r.Retry? || (dial.DialFailed? && r.err == Some(Builder(dial.cause))))
  {
    var i := ChosenIndex(|p.conns|, p.opt.maxIdle, pick);
    var a := Conn.Get(p.conns[i], now);
    GetGrownFallsBackToScan(p, pick, dial, now);
    ScanThenGrowSlots(p, i + 1, a.result, dial, now);
    ScanThenGrowOutcome(p, i + 1, a.result, dial, now);
  }

  /** When the warm try fails, `Get` is the fallback scan from the next
      connection on, over the unchanged pool. */
  lemma GetGrownFallsBackToScan(p: Pool, pick: nat, dial: Dial, now: int)
    requires p.state == Opened && 0 < |p.conns| && |p.conns| > p.opt.maxIdle
    requires Conn.Get(p.conns[ChosenIndex(|p.conns|, p.opt.maxIdle, pick)], now).result.Err?
    ensures var i := ChosenIndex(|p.conns|, p.opt.maxIdle, pick);
      Get(p, pick, dial, now) == ScanThenGrow(p, i + 1, Conn.Get(p.conns[i], now).result, dial, now)
  {
    var i := ChosenIndex(|p.conns|, p.opt.maxIdle, pick);
    SameConnKeepsPool(p, i, Conn.Get(p.conns[i], now).conn);
  }

  /** Writing a connection back unchanged leaves the pool as it was. */
  lemma SameConnKeepsPool(p: Pool, i: nat, c: Conn.GrpcConn)
    requires i < |p.conns| && c == p.conns[i]
    ensures p.(conns := p.conns[i := c]) == p
  {
    assert p.conns[i := c] == p.conns;
  }

  /** The fallback keeps the connections before `from`, reserves a slot on
      each later one that has a free slot, and can only add connections. */
  lemma ScanThenGrowSlots(p: Pool, from: nat, last: Result<Conn.LogicConn, Error>, dial: Dial, now: int)
    requires from <= |p.conns|
    ensures var r := ScanThenGrow(p, from, last, dial, now);
      && |p.conns| <= |r.pool.conns|
      && (forall k :: 0 <= k < from ==> r.pool.conns[k] == p.conns[k])
      && (forall k :: from <= k < |p.conns| ==> r.pool.conns[k] == Conn.Get(p.conns[k], now).conn)
  {
    var sc := Scan(p.conns, from, now, last);
    if sc.1.Err? {
      GrowKeepsConns(p.(conns := sc.0), dial, now);
    }
  }

  /** The fallback returns the last connection's handle when that `get`
      succeeds; otherwise (or with no later connection) it grows. */
  lemma ScanThenGrowOutcome(p: Pool, from: nat, last: Result<Conn.LogicConn, Error>, dial: Dial, now: int)
    requires from <= |p.conns| && last.Err?
    ensures var l := |p.conns|;
      var r := ScanThenGrow(p, from, last, dial, now);
      && (from < l && Conn.Get(p.conns[l - 1], now).result.Ok? ==>
            r.Returned? && r.handle == Some(Conn.Get(p.conns[l - 1], now).result.value) && r.err.None?)
      && (from == l || Conn.Get(p.conns[l - 1], now).result.Err? ==>
            r.Retry? || (dial.DialFailed? && r.err == Some(Builder(dial.cause))))
  {
    var sc := Scan(p.conns, from, now, last);
    if sc.1.Err? {
      GrowKeepsConns(p.(conns := sc.0), dial, now);
    }
  }

  /** Growth leaves every existing connection where it was, and either asks
      for another attempt or reports the builder's error. */
  lemma GrowKeepsConns(p: Pool, dial: Dial, now: int)
    ensures var r := GrowAndRetry(p, |p.conns|, dial, now);
      && (r.Retry? || (dial.DialFailed? && r.err == Some(Builder(dial.cause))))
      && |p.conns| <= |r.pool.conns|
      && forall k :: 0 <= k < |p.conns| ==> r.pool.conns[k] == p.conns[k]
  {
    var q := CreateNewGrpcConn(p, |p.conns|, dial, now).0;
    if |q.conns| == |p.conns| + 1 {
      assert forall k :: 0 <= k < |p.conns| ==> q.conns[k] == q.conns[..|p.conns|][k];
    }
  }

  /** The scan reserves a slot on every connection it visits that has one,
      but only the last visited connection's handle is returned: here the
      middle connection's slot is taken and the caller gets no handle, just
      another attempt after growth. */
  lemma ScanKeepsEarlierSlots()
    ensures var t := Transport(false, false);
      var c0 := Conn.GrpcConn(1, t, 100, Options.Minute, 0, 0);
      var c1 := Conn.GrpcConn(2, t, 100, Options.Minute, 2, 0);
      var c2 := Conn.GrpcConn(3, t, 100, Options.Minute, 0, 0);
      var p := Pool(Opened, Options.DefaultOption.(maxIdle := 1), [c0, c1, c2], 3, []);
      var r := Get(p, 0, Dialed(t), 5);
      && r.Retry? && |r.pool.conns| == 4
      && r.pool.conns[1].current == c1.current - 1
  {
  }

  /** Growth through `Get` never takes the pool past `GrpcPoolSize + 1`
      connections, and every `Retry` either added a connection or found the
      pool above the ceiling. */
  lemma GetRespectsCeiling(p: Pool, pick: nat, dial: Dial, now: int)
    requires |p.conns| <= p.opt.grpcPoolSize + 1
    ensures var r := Get(p, pick, dial, now);
      r.Returned? || r.Retry? ==> |r.pool.conns| <= p.opt.grpcPoolSize + 1
  {
  }

  /** Replacing connections by ones with the same id that still fit keeps
      the pool invariant. */
  lemma ReplacePreservesValid(p: Pool, cs: seq<Conn.GrpcConn>)
    requires Valid(p) && |cs| == |p.conns|
    requires forall k :: 0 <= k < |cs| ==> cs[k].id == p.conns[k].id && Fits(p, cs[k])
    ensures Valid(p.(conns := cs))
  {
  }

  /** A successful `get` keeps a connection fitting the pool. */
  lemma ConnGetFits(p: Pool, c: Conn.GrpcConn, now: int)
    requires Fits(p, c)
    ensures Fits(p, Conn.Get(c, now).conn) && Conn.Get(c, now).conn.id == c.id
  {
  }

  /** `Get` keeps the pool invariant. */
  lemma GetPreservesValid(p: Pool, pick: nat, dial: Dial, now: int)
    requires Valid(p)
    ensures var r := Get(p, pick, dial, now);
      r.Returned? || r.Retry? ==> Valid(r.pool)
  {
    if p.state == Opened && |p.conns| > 0 {
      var l := |p.conns|;
      var i := ChosenIndex(l, p.opt.maxIdle, pick);
      var a := Conn.Get(p.conns[i], now);
      ConnGetFits(p, p.conns[i], now);
      var p1 := p.(conns := p.conns[i := a.conn]);
      ReplacePreservesValid(p, p1.conns);
      if l > p.opt.maxIdle && a.result.Err? {
        var (cs, res) := Scan(p1.conns, i + 1, now, a.result);
        forall k | 0 <= k < |cs| ensures cs[k].id == p.conns[k].id && Fits(p, cs[k]) {
          if k > i { ConnGetFits(p, p1.conns[k], now); }
        }
        ReplacePreservesValid(p, cs);
      }
    }
  }

  /** Ids increase along a valid pool, so an id names at most one connection. */
  lemma IndexOfIdFindsOwner(cs: seq<Conn.GrpcConn>, i: nat)
    requires IdsAscending(cs) && i < |cs|
    ensures IndexOfId(cs, cs[i].id) == Some(i)
  {
  }

  /** `Put` of a handle bound to a pooled connection with a reserved slot
      gives that slot back and touches nothing else; giving back a slot that
      was never reserved panics (double release). */
  lemma PutReleasesOneSlot(p: Pool, i: nat, lc: Conn.LogicConn)
    requires Valid(p) && p.state == Opened && i < |p.conns|
    requires lc.gconn == Some(p.conns[i].id)
    ensures var c := p.conns[i];
      && (c.current < c.maxStreamsClient ==>
            Put(p, Some(lc)) == PutDone(p.(conns := p.conns[i := c.(current := c.current + 1)])))
      && (c.current == c.maxStreamsClient < MaxInt32 ==> Put(p, Some(lc)).PutPanic?)
  {
    IndexOfIdFindsOwner(p.conns, i);
  }

  /** Round trip: when `Get` succeeds on the connection it chose, `Put` of the
      returned handle restores every counter; only that connection's
      last-used time has moved to `now`. */
  lemma GetPutRoundTrip(p: Pool, pick: nat, dial: Dial, now: int)
    requires Valid(p) && p.state == Opened && |p.conns| > 0
    requires Conn.Get(p.conns[ChosenIndex(|p.conns|, p.opt.maxIdle, pick)], now).result.Ok?
    ensures var i := ChosenIndex(|p.conns|, p.opt.maxIdle, pick);
      var r := Get(p, pick, dial, now);
      && r.Returned? && r.handle.Some?
      && Put(r.pool, r.handle) == PutDone(p.(conns := p.conns[i := p.conns[i].(ts := now)]))
  {
    var i := ChosenIndex(|p.conns|, p.opt.maxIdle, pick);
    var a := Conn.Get(p.conns[i], now);
    var q := p.(conns := p.conns[i := a.conn]);
    ConnGetFits(p, p.conns[i], now);
    ReplacePreservesValid(p, q.conns);
    if |p.conns| <= p.opt.maxIdle { GetSmallPool(p, pick, dial, now); } else { GetGrownPoolWarm(p, pick, dial, now); }
    PutReleasesOneSlot(q, i, a.result.value);
    assert q.conns[i := a.conn.(current := a.conn.current + 1)] == p.conns[i := p.conns[i].(ts := now)];
  }

  /** `Put` keeps the pool invariant (for a per-connection maximum below
      MaxInt32, where every double release is caught). */
  lemma PutPreservesValid(p: Pool, lc: Option<Conn.LogicConn>)
    requires Valid(p) && p.opt.maxStreamsClient < MaxInt32
    ensures Put(p, lc).PutDone? ==> Valid(Put(p, lc).pool)
  {
    if p.state == Opened && lc.Some? && lc.value.gconn.Some? {
      var r := IndexOfId(p.conns, lc.value.gconn.value);
      if r.Some? {
        var i := r.value;
        var rc := Conn.Recycle(p.conns[i], lc.value);
        if rc.Recycled? {
          assert p.conns[i].current < p.conns[i].maxStreamsClient;
          ReplacePreservesValid(p, p.conns[i := rc.conn]);
        }
      }
    }
  }

  /** The caller's handle is not cleared by `Put`: putting the same handle
      twice releases twice, and when only one slot was out the second
      release panics. */
  lemma PutTwiceOverReleases(p: Pool, i: nat, lc: Conn.LogicConn)
    requires Valid(p) && p.state == Opened && i < |p.conns|
    requires lc.gconn == Some(p.conns[i].id)
    requires p.conns[i].current == p.conns[i].maxStreamsClient - 1 && p.opt.maxStreamsClient < MaxInt32
    ensures Put(p, Some(lc)).PutDone?
    ensures Put(Put(p, Some(lc)).pool, Some(lc)).PutPanic?
  {
    PutReleasesOneSlot(p, i, lc);
    var q := Put(p, Some(lc)).pool;
    PutPreservesValid(p, Some(lc));
    PutReleasesOneSlot(q, i, lc);
  }

  /** `IndexOfId` finds the first connection with the id. */
  lemma IndexOfIdFirst(cs: seq<Conn.GrpcConn>, j: nat)
    requires j < |cs| && forall k :: 0 <= k < j ==> cs[k].id != cs[j].id
    ensures IndexOfId(cs, cs[j].id) == Some(j)
  {
  }

  /** A handle whose connection the sweep retired still gives its slot back
      to that connection: the counter rises by one, and releasing a slot
      the retired connection never had out panics. */
  lemma PutOnRetiredConnection(p: Pool, j: nat, lc: Conn.LogicConn)
    requires p.state == Opened && j < |p.retired|
    requires lc.gconn == Some(p.retired[j].id)
    requires forall k :: 0 <= k < |p.conns| ==> p.conns[k].id != p.retired[j].id
    requires forall k :: 0 <= k < j ==> p.retired[k].id != p.retired[j].id
    ensures var c := p.retired[j];
      && (c.current < c.maxStreamsClient && c.current < MaxInt32 ==>
            Put(p, Some(lc)) == PutDone(p.(retired := p.retired[j := c.(current := c.current + 1)])))
      && (c.maxStreamsClient <= c.current < MaxInt32 ==> Put(p, Some(lc)).PutPanic?)
  {
    IndexOfIdFirst(p.retired, j);
  }
}
